=== FILE: README.md ===
# Exhibition manager front-end: session and page logic in Dafny

This project models the client-side logic of a single-page app for real-estate
exhibitions. Administrators create exhibitions and review booth applications. Exhibitors
apply for booths and list properties. Visitors register and get QR tickets. The backend
does the real work. What is modelled here is the client's own logic:

- **The auth slice** (`Auth`). The `Session` record `{user, token, isAuthenticated,
  loading, error, otpSent}` is seeded from localStorage at page load (`Init`). The
  reducer (`Step`) covers all fourteen actions: `logout`, `resetError`, and
  pending/fulfilled/rejected for `sendOtp`, `verifyOtp`, `loginAdmin` and
  `loginWithGoogle`. localStorage is a record of the three keys the slice uses.
  A thunk is a `Call`. `Settle` turns it into its pending action and its settling action,
  given the request's `Outcome`.
- **The sign-in pages** (`LoginPage`, `AdminLoginPage`). This covers the redirect after
  sign-in, the switch between the phone form and the OTP form, the order of the dispatches
  on submit, and the admin/non-admin decision.
- **The dashboard and role selection** (`DashboardPage`, `RoleSelectionPage`). This covers
  the role-to-panel switch, the Switch Role link, the identity label, and the role change.
  The role change writes storage and then forces a full page load.
- **The panels.** `Scanner` is the QR check-in machine. `AdminEventsPanel` covers
  create, delete and approve/reject. `ExhibitorPanel` covers the approved filter,
  auto-selection, the apply buttons, and the application and property payloads.
- **Cross-page flows** (`Flows`). OTP sign-in end to end, the wrong-code case, the
  agreement of the three sign-in paths, the admin landing, the role switch with reload,
  and logout.

Network calls are parameters. Every handler that sends a request takes the request's
`Outcome` (`Ok(value)` or `Err(failure)`) and returns its new state with a list of
`Effect`s: requests sent, alerts raised, navigations. The answers of `confirm` and
`prompt` are parameters too (`bool`, `Option<string>`). URLs are a datatype (`Endpoint`),
one constructor per URL template. Body field names are a datatype too (`Key`); `Wire`
gives each one's JSON or form name.

These behaviours follow the code as written:

- A successful verify or login does not clear `otpSent`. Only `logout` (or a reload)
  does.
- `logout` leaves `loading` and `error` as they were.
- The public sign-in page sends every `VISITOR` to `/select-role`, whatever their history.
- The phone input stays editable while the code is being sent; only the button is
  disabled. A number typed then is the one the OTP form shows and verifies, even though
  the code went to the number first submitted.
- The booth application body has a sixth field, `payment_screenshot`, only when a file is
  held. The branch without a file exists in the code but cannot be reached through the
  form, whose file input is required and starts empty each time the modal opens.
- After a successful booth application the form is not reset. Only a comment mentions a
  reset.

These JavaScript details are kept:

- `""` is falsy. A stored empty access token therefore reads back as signed out.
- A missing or `null` access token in a login response is stored as the text
  `"undefined"` or `"null"`.
- The id `0` is falsy. The exhibitor panel's selection checks use JavaScript truthiness.

## Model

| member | source | states |
|---|---|---|
| Auth.Init | src/store/authSlice.js:26-33 | On page load the session is signed in exactly when a non-empty access token is stored. The token is that stored value or null. The user is the stored user when the key exists, and null when it is missing. Loading, error and otpSent start cleared, and the invariant isAuthenticated ⇔ token ≠ null holds |
| Auth.Step | src/store/authSlice.js:34-113 | Storage and credentials change only on logout or a login success. Pending raises loading, and every settlement lowers it. Error is set only by a rejection and cleared by reset or pending. otpSent rises only on send-otp success and falls only on logout. The invariant and memory/storage agreement are kept by every action except a login without a usable token |
| Auth.Run | src/store/authSlice.js:34-113 | Over any sequence of actions, the invariant and memory/storage agreement survive when every login carries a usable token. With no logout or login, storage and credentials never change |
| Auth.Boot | src/pages/Login.jsx:170 | A page load (also the 'Change Phone Number' reload) keeps storage as it is and starts from a session that is consistent and agrees with storage: signed in exactly when a non-empty token is stored |
| Auth.ResetErrorFrame | src/store/authSlice.js:44-46 | resetError sets error to null and changes no other field and no storage |
| Auth.LogoutClears | src/store/authSlice.js:35-43 | logout leaves user and token null, isAuthenticated and otpSent false, and all three keys removed. It keeps loading and error, and memory agrees with storage afterwards |
| Auth.PendingFrame | src/store/authSlice.js:50-53 | A pending case sets loading true and error null, and nothing else |
| Auth.RejectedFrame | src/store/authSlice.js:58-61 | A rejected case sets loading false and error to the message. Credentials, otpSent and storage are unchanged |
| Auth.SendOtpFulfilledFrame | src/store/authSlice.js:54-57 | sendOtp success sets otpSent and clears loading. No credential and no storage is touched |
| Auth.LoginFulfilledEffect | src/store/authSlice.js:66-108 | The three login successes give the same state. They sign in with the payload's user and token, write all three keys, keep error, and do not clear otpSent |
| Auth.ConsistentPreservedIff | src/store/authSlice.js:66-74 | From a consistent session, a step keeps isAuthenticated ⇔ token ≠ null exactly when it is not a login whose access token is missing or null |
| Auth.SyncedPreservedIff | src/store/authSlice.js:27-29 | From a state where memory and storage agree, a step keeps them in agreement exactly when it is not a login whose access token is missing, null or empty |
| Auth.ReloadAfterLogin | src/store/authSlice.js:68-73 | Reloading right after a login gives back the same token, user and isAuthenticated exactly when the access token is a non-empty string |
| Auth.ReloadAnywhere | src/store/authSlice.js:26-33 | From any page load, after actions whose logins carry usable tokens, a reload gives back the credentials in memory |
| Auth.RequestOf | src/store/authSlice.js:4-22 | Each thunk posts JSON to its own auth endpoint. The body has exactly the argument names (phone_number; phone_number and otp; email and password; token), in order, and each carries the thunk's argument |
| Auth.SettleEffect | src/store/authSlice.js:4-22 | Running one thunk's lifecycle leaves loading off. On failure the error is the message and credentials, otpSent and storage are unchanged. On send-otp success the OTP form is shown and nothing is stored. On a login success the user is signed in with the returned user and the answer is persisted |
| Auth.RunAppend | src/store/authSlice.js:34-113 | Running two action sequences one after the other is running their concatenation: the store holds nothing besides the reducer's state |
| Auth.Expand | src/store/authSlice.js:4-22 | A lone plain dispatch reaches the reducer as itself. A lone thunk reaches it as its pending action followed by its settlement |
| Auth.ExpandAppend | src/store/authSlice.js:4-22 | Dispatching one sequence after another gives the actions of the first followed by those of the second |
| LoginPage.Redirect | src/pages/Login.jsx:24-40 | No navigation when signed out. ADMIN goes to /dashboard, VISITOR goes to /select-role, and any other or missing role goes to /dashboard |
| LoginPage.RedirectFollowsPolicy | src/pages/Login.jsx:24-40 | The page's nested branches equal one policy: when signed in, go to the next route for the user; otherwise stay |
| LoginPage.ViewOf | src/pages/Login.jsx:58-74 | The OTP form and the 'Verify OTP' title show exactly when otpSent is true; otherwise the phone form and 'Sign In' show. Submit is disabled exactly while loading, and the error banner shows a non-empty error |
| Flows.ResetThenThunk | src/pages/Login.jsx:42-52 | A submit (resetError, then a thunk) never leaves an earlier error behind: afterwards the error is the failure's message or null, and loading is off. A failure leaves credentials, otpSent and storage unchanged |
| Flows.SendOtpSubmit | src/pages/Login.jsx:42-46 | Submitting the phone form requests an OTP for the typed number. Credentials and storage never change. Success shows the OTP form and failure shows the message |
| Flows.VerifyOtpSubmit | src/pages/Login.jsx:48-52 | Submitting the OTP form posts the typed number and code. Success signs in with the returned user, persists the answer and triggers the policy redirect. Failure shows the message and keeps credentials and storage |
| Flows.GoogleSubmit | src/pages/Login.jsx:17-20 | A Google success posts the provider token. The backend's answer signs in like any login, and a rejection only shows the message |
| LoginPage.Type | src/pages/Login.jsx:80-89 | A keystroke can only edit the input that is rendered: the phone number while the phone form is shown, the code while the OTP form is shown (its input is at lines 148-157) |
| LoginPage.TypeAll | src/pages/Login.jsx:74-89 | Only the rendered form's input can be edited. While the OTP form is shown the phone number cannot change, and while the phone form is shown the code cannot change |
| LoginPage.VerifyUsesPhoneAtSwitch | src/pages/Login.jsx:48-52 | verifyOtp receives the number the phone input held when the OTP form appeared, whatever is typed on the OTP form. Edits made before the switch count |
| LoginPage.EditBeforeSwitchIsVerified | src/pages/Login.jsx:42-52 | An edit of the phone input before the OTP form appears is the number verified. When it differs from the number submitted, the code is verified against a number it was not sent to |
| AdminLoginPage.EffectOf | src/pages/AdminLogin.jsx:15-25 | Signed out: nothing happens. ADMIN goes to /dashboard. Any other signed-in user gets the access-denied alert, with no navigation and no logout |
| AdminLoginPage.AgreesWithLoginPage | src/pages/AdminLogin.jsx:16-17 | Wherever the admin page navigates, the public page navigates to the same route. Both do nothing exactly when signed out. A signed-in non-admin gets the alert here but is redirected by the public page |
| Flows.AdminLoginSubmit | src/pages/AdminLogin.jsx:27-31 | The organiser form posts exactly the entered email and password. Success signs in with the returned user and persists the answer. Failure shows the message and keeps credentials and storage |
| Flows.AdminButtonTracksRequest | src/pages/AdminLogin.jsx:81 | The login button is disabled once the request is pending and enabled again once it settles, whatever the answer |
| DashboardPage.PanelFor | src/pages/Dashboard.jsx:12-23 | ADMIN, EXHIBITOR and VISITOR each get their own panel. Any other role, or no user, gets 'Unknown Role'. Exactly one view is chosen |
| DashboardPage.SwitchRoleShown | src/pages/Dashboard.jsx:33-37 | The Switch Role link shows exactly when the role is not ADMIN, including when there is no user. That is exactly when the role switch does not pick the admin panel |
| DashboardPage.IdentityLabel | src/pages/Dashboard.jsx:39 | The label is the phone number when it is non-empty, otherwise the email. A non-empty label shows exactly when the user has a non-empty phone number or email |
| RoleSelectionPage.RoleOfCard | src/pages/RoleSelection.jsx:48-62 | Each card requests VISITOR or EXHIBITOR, never ADMIN |
| RoleSelectionPage.AdminNeverRequested | src/pages/RoleSelection.jsx:48-62 | ADMIN is not among the offered roles, and every card's role is |
| RoleSelectionPage.OnRoleSelect | src/pages/RoleSelection.jsx:12-35 | Posts the role. On success the stored user is replaced by the server's user, then the page relocates to /dashboard. On failure storage is unchanged and the only result is an alert. The in-memory session is never touched |
| RoleSelectionPage.RoleSelectKeepsTokens | src/pages/RoleSelection.jsx:25-26 | A role change never writes the access or refresh token keys |
| Scanner.OnDecoded | src/components/AdminScanner.jsx:19-26 | On decode, scanning stops at once, before any answer. The result is still unknown, and the decoded text is posted as qr_token |
| Scanner.OnVerified | src/components/AdminScanner.jsx:26-38 | Success gives status 'success' with the server message and registration. Failure gives status 'error' with the server's error text, or 'Verification Failed' when there is none, and no data |
| Scanner.OnReset | src/components/AdminScanner.jsx:64-67 | Scan Next returns to the initial state, where the scanner runs and the reader shows |
| Scanner.Next | src/components/AdminScanner.jsx:19-67 | A decode stops the camera and keeps the result. An answer shows a result and leaves the scanning flag. Scan Next makes the scanner active with the reader shown |
| Scanner.PhaseOf | src/components/AdminScanner.jsx:46-75 | The scanning phase is exactly "scanner active" (scanning and no result). The result phase is exactly "reader hidden" |
| Scanner.PhaseTransitions | src/components/AdminScanner.jsx:7-75 | A decode moves scanning to verifying. An answer shows the result. Reset returns to the initial state, and nothing else leaves the result |
| Scanner.NextAll | src/components/AdminScanner.jsx:7-75 | Over any events, a shown result stays without a reset, and no result appears without an answer |
| Scanner.ResultHeldUntilReset | src/components/AdminScanner.jsx:64-67 | Without a reset the result stays on screen and the scanner does not restart: there is no timeout |
| AdminEventsPanel.OnEventsFetched | src/components/AdminEvents.jsx:27-36 | The fetched list replaces the events. A failure keeps them. Loading ends either way, and nothing else changes |
| AdminEventsPanel.FetchApplications | src/components/AdminEvents.jsx:38-50 | Success sends only the fetch, then sets the selected event, loads its applications and opens the modal, changing nothing else. Failure alerts and changes nothing |
| AdminEventsPanel.DecisionFor | src/components/AdminEvents.jsx:54 | The endpoint is 'approve' exactly when the requested status is 'APPROVED', otherwise 'reject' |
| AdminEventsPanel.OnStatusUpdate | src/components/AdminEvents.jsx:52-65 | Posts, as JSON, a body with exactly one field, booth_number, carrying the booth number or null. The URL is the decision's endpoint. Success re-fetches the selected event's applications and failure alerts 'Action failed.'. Panel state is untouched |
| AdminEventsPanel.OnApprove | src/components/AdminEvents.jsx:210 | Approve posts JSON to the approve endpoint with booth_number as the only field: the prompt's answer, or null when the prompt is cancelled. Success re-fetches the open event's applications and failure alerts 'Action failed.'. The panel is untouched |
| AdminEventsPanel.OnReject | src/components/AdminEvents.jsx:216 | Reject posts JSON to the reject endpoint with a null booth_number as the only field. Success re-fetches the open event's applications and failure alerts 'Action failed.'. The panel is untouched |
| AdminEventsPanel.CancelledPromptStillApproves | src/components/AdminEvents.jsx:210-216 | A cancelled booth prompt still approves. It sends the same body as a rejection, to the approve endpoint, with the same follow-up |
| AdminEventsPanel.ActionsFor | src/components/AdminEvents.jsx:207-225 | Approve/Reject controls appear exactly for 'PENDING'. Otherwise 'No actions available' appears. Exactly one of the two shows |
| AdminEventsPanel.ApprovedRowLosesActions | src/components/AdminEvents.jsx:52-63 | After a successful approve the panel re-fetches the open event's applications. Once that answer lists the application as APPROVED, its row offers no actions |
| AdminEventsPanel.EventBody | src/components/AdminEvents.jsx:67-70 | The create request has the ten form fields, name through booth_capacity, in the form's order |
| AdminEventsPanel.EventBodyCarriesForm | src/components/AdminEvents.jsx:67-70 | A reader of the request finds under each of the ten names the form's value, with booth_capacity as a number |
| AdminEventsPanel.OnCreate | src/components/AdminEvents.jsx:67-81 | On success the modal closes, the events are re-fetched and the form returns to its defaults. On failure there is only an alert |
| AdminEventsPanel.CreateResetsForm | src/components/AdminEvents.jsx:73-77 | The values written after a successful create equal the initial values of lines 17-21 (blank fields, capacity 100). A second successful create leaves the panel as the first did |
| AdminEventsPanel.OnDelete | src/components/AdminEvents.jsx:83-92 | A declined confirm sends nothing and changes nothing. A confirmed delete re-fetches on success and alerts on failure |
| AdminEventsPanel.DeclinedDeleteIgnoresOutcome | src/components/AdminEvents.jsx:84 | A declined confirm is the same no-op whatever the server would have answered |
| AdminEventsPanel.DecisionRefreshesSameEvent | src/components/AdminEvents.jsx:38-65 | Once the modal is open for an event, a successful decision re-fetches that same event's applications, and the refreshed modal stays on it |
| ExhibitorPanel.Approved | src/components/ExhibitorDashboard.jsx:35-36 | Every kept application is APPROVED and comes from the list. Every APPROVED application is kept |
| ExhibitorPanel.ApprovedAppend | src/components/ExhibitorDashboard.jsx:35-36 | The filter keeps the original order: filtering a concatenation concatenates the filtered parts |
| ExhibitorPanel.AutoSelect | src/components/ExhibitorDashboard.jsx:37-39 | The selection becomes the first approved id exactly when some application is approved, the view is properties and nothing (truthy) is selected. Otherwise it is unchanged |
| ExhibitorPanel.Refilter | src/components/ExhibitorDashboard.jsx:33-40 | The effect sets the approved list to the APPROVED applications. It sets the selection to AutoSelect's choice for that list, view and old selection, and changes nothing else |
| ExhibitorPanel.PropertiesFetch | src/components/ExhibitorDashboard.jsx:42-46 | Properties are fetched, for the selected application, only when one is selected and the view is properties |
| ExhibitorPanel.RefilterThenFetch | src/components/ExhibitorDashboard.jsx:33-46 | On the properties tab, a fetch follows the filter exactly when a selection already existed or the first approved id is non-zero. An auto-selected id belongs to an approved application |
| ExhibitorPanel.PropertiesTabAfterRefilter | src/components/ExhibitorDashboard.jsx:140-142 | Once the filter has run, the 'My Properties' tab shows exactly when one of the exhibitor's applications is APPROVED |
| ExhibitorPanel.FirstLoad | src/components/ExhibitorDashboard.jsx:28-46 | After the first applications load the filter has run on them. Nothing is selected and no properties are fetched, since the panel opens on the events tab. The properties tab shows exactly when an application is approved |
| ExhibitorPanel.FirstMatch | src/components/ExhibitorDashboard.jsx:149 | Finds the first application for the event. None exactly when no application has that exhibition |
| ExhibitorPanel.ButtonFor | src/components/ExhibitorDashboard.jsx:149-174 | 'Apply for Booth' shows exactly when no application has the event's id |
| ExhibitorPanel.ButtonDecidedByFirstMatch | src/components/ExhibitorDashboard.jsx:160-166 | The first matching application decides the button: 'Approved' if APPROVED, otherwise 'Application Sent'. Later matches are ignored |
| ExhibitorPanel.OnApply | src/components/ExhibitorDashboard.jsx:169 | Apply for Booth remembers the event and opens the form, changing nothing else |
| ExhibitorPanel.ApplicationBody | src/components/ExhibitorDashboard.jsx:84-92 | The payload has company_name, council_area, business_type, contact_details and exhibition, in that order. payment_screenshot follows exactly when a file is held, and carries that file; through the form one always is, since the file input is required. exhibition carries the selected event, or null |
| ExhibitorPanel.ApplicationBodyCarriesForm | src/components/ExhibitorDashboard.jsx:84-92 | A reader of the payload finds under each field name the form's value, under exhibition the selected event's id (null when none), and under payment_screenshot the chosen file |
| ExhibitorPanel.OnSubmitApplication | src/components/ExhibitorDashboard.jsx:82-106 | Sends the multipart payload. On success it alerts, closes the modal and re-fetches applications. On failure it alerts only. The form is kept either way |
| ExhibitorPanel.PropertyBody | src/components/ExhibitorDashboard.jsx:113-116 | The property payload is the five form fields followed by exhibitor_application, in that order |
| ExhibitorPanel.PropertyBodyCarriesForm | src/components/ExhibitorDashboard.jsx:113-116 | A reader of the payload finds under each form field the form's value, and under exhibitor_application the selected id |
| ExhibitorPanel.OnSubmitProperty | src/components/ExhibitorDashboard.jsx:108-124 | Without a (truthy) selected application nothing happens. Otherwise the property is posted. Success closes the modal, re-fetches the properties and empties the form. Failure raises 'Failed to add property' and changes nothing |
| ExhibitorPanel.OnDeleteProperty | src/components/ExhibitorDashboard.jsx:126-131 | A declined confirm sends nothing. A confirmed delete re-fetches the properties for the current selection (null when there is none) on success. A failure is not caught, so nothing follows it |
| ExhibitorPanel.DeclinedDeleteIgnoresOutcome | src/components/ExhibitorDashboard.jsx:127 | A declined confirm is the same no-op whatever the server would have answered |
| ExhibitorPanel.BorderColour | src/components/ExhibitorDashboard.jsx:185 | Green for APPROVED, red for REJECTED, orange otherwise |
| ExhibitorPanel.GreenExactlyWhenApproved | src/components/ExhibitorDashboard.jsx:185 | A card's border is green exactly when its application passes the APPROVED filter that feeds the properties tab |
| ExhibitorPanel.OnEventsLoaded | src/components/ExhibitorDashboard.jsx:49-54 | The loaded events replace the list, and nothing else changes. A failure changes nothing |
| ExhibitorPanel.OnApplicationsLoaded | src/components/ExhibitorDashboard.jsx:56-65 | The loaded applications replace the exhibitor's list, and nothing else changes. A failure changes nothing |
| ExhibitorPanel.OnPropertiesLoaded | src/components/ExhibitorDashboard.jsx:67-75 | The loaded properties replace the list, and nothing else changes. A failure changes nothing |
| Flows.OtpSignIn | src/pages/Login.jsx:24-52 | Send OTP, typing while it is sent, then verify with a good answer. The OTP form appears with no error and nothing stored. The code goes with the number the phone input held when the OTP form appeared. The two submits together are one run of their actions. The user ends signed in, with a usable stored token, memory and storage agreeing, and a redirect by the policy |
| Flows.EditWhileSending | src/pages/Login.jsx:80-93 | While the code is being sent, the phone form stays with only its button disabled. A number typed then is the one the OTP form verifies, not the one the code was sent to |
| Flows.ChangePhoneNumber | src/pages/Login.jsx:168-174 | The reload brings back the phone form and keeps storage. The inputs restart blank (lines 9-10), and the code stays empty until an OTP form shows again |
| Flows.WrongOtp | src/store/authSlice.js:75-78 | A rejected verify shows the error. Credentials and storage stay as they were, and the OTP form stays |
| Flows.SignInPathsAgree | src/store/authSlice.js:66-108 | OTP verify, admin login and Google login reach the same state for the same server answer |
| Flows.AdminSignIn | src/pages/AdminLogin.jsx:15-31 | An admin who signs in is sent to /dashboard, which shows the admin panel without the Switch Role link |
| Flows.NonAdminDenied | src/pages/AdminLogin.jsx:18-23 | A non-admin who signs in on the organiser page gets the alert and stays signed in, with storage written |
| Flows.RoleSwitchRoundTrip | src/pages/RoleSelection.jsx:25-29 | After a role change and the reload, the session holds the server's user with the same token and sign-in state. The dashboard shows the granted role's panel. Before the reload the session is unchanged |
| Flows.RoleSwitchFailure | src/pages/RoleSelection.jsx:31-34 | A failed role change leaves session and storage alone and does not leave the page |
| Flows.LogoutAnywhere | src/pages/Dashboard.jsx:41-42 | The logout button (and the role page's Sign Out, src/pages/RoleSelection.jsx:77, which dispatches the same) makes the store take exactly the logout step, from any state. Afterwards memory and storage are signed out, no sign-in page redirects, and the dashboard's role switch would render 'Unknown Role' for the signed-out user |

Some handlers have no row of their own, because a flow row covers them at the same lines:

- `LoginPage.OnSendOtp`, `OnVerifyOtp` and `OnGoogleSuccess` are covered by
  `Flows.SendOtpSubmit`, `Flows.VerifyOtpSubmit` and `Flows.GoogleSubmit`.
- `AdminLoginPage.OnAdminLogin` and `ButtonDisabled` are covered by
  `Flows.AdminLoginSubmit` and `Flows.AdminButtonTracksRequest`.
- `DashboardPage.OnLogoutClick` is covered by `Flows.LogoutAnywhere`.
- `Auth.Settle` is covered by `Auth.Expand` and `Auth.SettleEffect`.
- `ExhibitorPanel.PropertiesTabShown` is covered by
  `ExhibitorPanel.PropertiesTabAfterRefilter`.

## Left out

- HTTP transport and the backend: every request is an `Outcome` parameter. Nothing about
  OTP delivery, token validity or stored applications is modelled.
- JSON text: the stored `user` is the value it parses back to. Malformed stored JSON
  (for example a `user` of `undefined`, which parses with an error) is not modelled.
- Rendering, styling and `useEffect` scheduling: the effects are functions applied when
  their dependencies change. Interleaved or duplicate in-flight thunks are not modelled.
- Console logging, and the Google OAuth, QR-camera and QR-code libraries: the scanner's
  decode callback is an input event.
- `window.location.reload()` ("Change Phone Number") is a page load, `Auth.Boot`. Assigning
  `window.location.href` is the `Relocate` effect.
- The Scan QR and Create New buttons, the modal close buttons, and the exhibitor's tab
  buttons and "Manage Properties" link are plain state toggles without a rule.
- A loaded list is taken as the list itself. The `results || data` unwrapping of a
  paginated answer is not modelled.
- The exhibitor's application `<select>` stores the option's string value. The model keeps
  ids as numbers.
- The visitor dashboard, the router wiring (its route guard is not part of this model) and
  the app bootstrap. What the user sees at /dashboard after logout depends on that guard.
  `Flows.LogoutAnywhere` states only what the dashboard's role switch would pick.
- The browser's `required` check on form inputs. The submit handlers (`handleSendOtp`,
  `handleVerifyOtp`, `handleAdminLogin`, event creation, `submitApplication`,
  `submitProperty`) are modelled for every input, empty fields included. In the page the
  browser never submits a form whose required inputs are empty. Those inputs are the phone
  number and the code (src/pages/Login.jsx:83, 151); the admin email and password
  (src/pages/AdminLogin.jsx:56, 71); the event's text and date fields
  (src/components/AdminEvents.jsx:154-170); and the application's company, council,
  contact and payment-screenshot file plus every property field
  (src/components/ExhibitorDashboard.jsx:237-270).

=== FILE: admin_events.dfy ===
/** The admin panel: the exhibitions list, the create form, confirm-gated delete, and the
    applications modal with its approve/reject actions. */
module AdminEventsPanel {
  import opened Common
  import opened Http
  import opened Ui
  import opened Records

  datatype EventForm = EventForm(
    name: string, description: string, venueName: string, address: string,
    city: string, state: string, country: string,
    startDate: string, endDate: string, boothCapacity: int)

  datatype PanelState = PanelState(
    events: seq<Exhibition>,
    loading: bool,
    showModal: bool,
    showAppsModal: bool,
    selectedEventId: Option<nat>,
    applications: seq<Application>,
    form: EventForm)

  /** The panel as it mounts: loading, no modal, and the create form's initial values. */
  const Initial: PanelState := PanelState([], true, false, false, None, [],
    EventForm(name := "", description := "", venueName := "", address := "",
              city := "", state := "", country := "",
              startDate := "", endDate := "", boothCapacity := 100))

  datatype Reaction = Reaction(panel: PanelState, effects: seq<Effect>)

  const LoadFailed: string := "Failed to load applications."
  const ActionFailed: string := "Action failed."
  const CreateFailed: string := "Failed to create event"
  const DeleteFailed: string := "Failed to delete event"

  /** The events list arrived (or failed; the failure is only logged). */
  function OnEventsFetched(p: PanelState, o: Outcome<seq<Exhibition>>): (r: PanelState)
    ensures !r.loading
    ensures o.Ok? ==> r.events == o.value
    ensures o.Err? ==> r.events == p.events
    ensures r.(events := p.events, loading := p.loading) == p
  {
    match o
    case Ok(list) => p.(events := list, loading := false)
    case Err(_) => p.(loading := false)
  }

  /** `fetchApplications(eventId)`: on success the modal opens on that event's
      applications; on failure an alert is raised and nothing else changes. */
  function FetchApplications(p: PanelState, eventId: Option<nat>, o: Outcome<seq<Application>>): (r: Reaction)
    ensures |r.effects| >= 1 && r.effects[0] == Send(Fetch(ApplicationsOfEventUrl(eventId)))
    ensures o.Ok? ==> r.effects == [Send(Fetch(ApplicationsOfEventUrl(eventId)))]
    ensures o.Ok? ==> r.panel.showAppsModal && r.panel.selectedEventId == eventId && r.panel.applications == o.value
    ensures o.Ok? ==> r.panel.(showAppsModal := p.showAppsModal, selectedEventId := p.selectedEventId, applications := p.applications) == p
    ensures o.Err? ==> r.panel == p && r.effects == [Send(Fetch(ApplicationsOfEventUrl(eventId))), Alert(LoadFailed)]
  {
    var request := Send(Fetch(ApplicationsOfEventUrl(eventId)));
    match o
    case Ok(apps) => Reaction(p.(applications := apps, selectedEventId := eventId, showAppsModal := true), [request])
    case Err(_) => Reaction(p, [request, Alert(LoadFailed)])
  }

  /** The endpoint for a requested status: only 'APPROVED' approves. */
  function DecisionFor(status: string): (d: Decision)
    ensures d == Approve <==> status == APPROVED
  {
    if status == APPROVED then Approve else Reject
  }

  /** `handleStatusUpdate`: post the decision with the booth number, then, on success,
      re-fetch the applications of the event whose modal is open. The panel's own state is
      not changed by the handler itself. */
  function OnStatusUpdate(p: PanelState, appId: nat, status: string, booth: Option<string>, o: Outcome<()>): (r: Reaction)
    ensures r.panel == p
    ensures |r.effects| == 2
    ensures r.effects[0].Send? && r.effects[0].request.verb == Post && r.effects[0].request.encoding == Json
    ensures r.effects[0].request.url == DecisionUrl(appId, DecisionFor(status))
    ensures Names(r.effects[0].request.body) == [BoothNumber]
    ensures Lookup(r.effects[0].request.body, BoothNumber) == Some(if booth.Some? then Str(booth.value) else Null)
    ensures o.Ok? <==> r.effects[1] == Send(Fetch(ApplicationsOfEventUrl(p.selectedEventId)))
    ensures o.Err? <==> r.effects[1] == Alert(ActionFailed)
  {
    var body := [Field(BoothNumber, if booth.Some? then Str(booth.value) else Null)];
    var post := Send(Request(Post, DecisionUrl(appId, DecisionFor(status)), body, Json));
    match o
    case Ok(_) => Reaction(p, [post, Send(Fetch(ApplicationsOfEventUrl(p.selectedEventId)))])
    case Err(_) => Reaction(p, [post, Alert(ActionFailed)])
  }

  /** The controls of one application row. */
  datatype RowActions = ApproveOrReject | NoActionsAvailable

  function ActionsFor(app: Application): (a: RowActions)
    ensures a == ApproveOrReject <==> app.status == PENDING
    ensures a == NoActionsAvailable <==> app.status != PENDING
  {
    if app.status == PENDING then ApproveOrReject else NoActionsAvailable
  }

  /** Approve: the booth number is the answer to a prompt (`None` when cancelled, which
      still approves, with a null booth). */
  function OnApprove(p: PanelState, app: Application, promptAnswer: Option<string>, o: Outcome<()>): (r: Reaction)
    ensures |r.effects| == 2 && r.effects[0].Send? && r.effects[0].request.url == DecisionUrl(app.id, Approve)
    ensures r.effects[0].request.verb == Post && r.effects[0].request.encoding == Json
    ensures Names(r.effects[0].request.body) == [BoothNumber]
    ensures Lookup(r.effects[0].request.body, BoothNumber) == Some(if promptAnswer.Some? then Str(promptAnswer.value) else Null)
    ensures o.Ok? ==> r.effects[1] == Send(Fetch(ApplicationsOfEventUrl(p.selectedEventId)))
    ensures o.Err? ==> r.effects[1] == Alert(ActionFailed)
    ensures r.panel == p
  {
    OnStatusUpdate(p, app.id, APPROVED, promptAnswer, o)
  }

  /** Reject: no booth number. */
  function OnReject(p: PanelState, app: Application, o: Outcome<()>): (r: Reaction)
    ensures |r.effects| == 2 && r.effects[0].Send? && r.effects[0].request.url == DecisionUrl(app.id, Reject)
    ensures r.effects[0].request.verb == Post && r.effects[0].request.encoding == Json
    ensures Names(r.effects[0].request.body) == [BoothNumber]
    ensures Lookup(r.effects[0].request.body, BoothNumber) == Some(Null)
    ensures o.Ok? ==> r.effects[1] == Send(Fetch(ApplicationsOfEventUrl(p.selectedEventId)))
    ensures o.Err? ==> r.effects[1] == Alert(ActionFailed)
    ensures r.panel == p
  {
    OnStatusUpdate(p, app.id, REJECTED, None, o)
  }

  /** A cancelled booth prompt does not cancel the approval: it sends the very body a
      rejection sends, to the other endpoint, and both then refresh the same event. */
  lemma CancelledPromptStillApproves(p: PanelState, app: Application, o: Outcome<()>)
    ensures var approve := OnApprove(p, app, None, o);
      var reject := OnReject(p, app, o);
      && approve.effects[0].request.url == DecisionUrl(app.id, Approve)
      && approve.effects[0].request.body == reject.effects[0].request.body
      && approve.effects[1..] == reject.effects[1..]
  {
  }

  const EventFields: seq<Key> :=
    [Name, Description, VenueName, Address, City, State, Country, StartDate, EndDate, BoothCapacity]

  lemma EventFieldsDistinct()
    ensures Distinct(EventFields)
  {
  }

  /** The create form as a JSON body, one field per form entry in the form's order. */
  function EventBody(f: EventForm): (body: seq<Field>)
    ensures Names(body) == EventFields
  {
    var values := [Str(f.name), Str(f.description), Str(f.venueName), Str(f.address), Str(f.city),
      Str(f.state), Str(f.country), Str(f.startDate), Str(f.endDate), Num(f.boothCapacity)];
    NamesZip(EventFields, values);
    Zip(EventFields, values)
  }

  /** Every field of the create request carries the form's value; the capacity goes as a
      number. */
  lemma EventBodyCarriesForm(f: EventForm)
    ensures Lookup(EventBody(f), Name) == Some(Str(f.name))
    ensures Lookup(EventBody(f), Description) == Some(Str(f.description))
    ensures Lookup(EventBody(f), VenueName) == Some(Str(f.venueName))
    ensures Lookup(EventBody(f), Address) == Some(Str(f.address))
    ensures Lookup(EventBody(f), City) == Some(Str(f.city))
    ensures Lookup(EventBody(f), State) == Some(Str(f.state))
    ensures Lookup(EventBody(f), Country) == Some(Str(f.country))
    ensures Lookup(EventBody(f), StartDate) == Some(Str(f.startDate))
    ensures Lookup(EventBody(f), EndDate) == Some(Str(f.endDate))
    ensures Lookup(EventBody(f), BoothCapacity) == Some(Num(f.boothCapacity))
  {
    var values := [Str(f.name), Str(f.description), Str(f.venueName), Str(f.address), Str(f.city),
      Str(f.state), Str(f.country), Str(f.startDate), Str(f.endDate), Num(f.boothCapacity)];
    assert EventBody(f) == Zip(EventFields, values);
    EventFieldsDistinct();
    LookupZip(EventFields, values, 0); LookupZip(EventFields, values, 1);
    LookupZip(EventFields, values, 2); LookupZip(EventFields, values, 3);
    LookupZip(EventFields, values, 4); LookupZip(EventFields, values, 5);
    LookupZip(EventFields, values, 6); LookupZip(EventFields, values, 7);
    LookupZip(EventFields, values, 8); LookupZip(EventFields, values, 9);
  }

  /** Submitting the create form: on success the modal closes, the list is re-fetched and
      the form returns to its defaults; on failure only an alert. */
  function OnCreate(p: PanelState, o: Outcome<()>): (r: Reaction)
    ensures |r.effects| == 2 && r.effects[0] == Send(Request(Post, EventsUrl, EventBody(p.form), Json))
    ensures o.Ok? ==> r.panel.(form := p.form) == p.(showModal := false) && r.effects[1] == Send(Fetch(EventsUrl))
    ensures o.Err? ==> r.panel == p && r.effects[1] == Alert(CreateFailed)
  {
    var post := Send(Request(Post, EventsUrl, EventBody(p.form), Json));
    match o
    case Ok(_) =>
      var reset := EventForm(name := "", description := "", venueName := "", address := "",
                             city := "", state := "", country := "",
                             startDate := "", endDate := "", boothCapacity := 100);
      Reaction(p.(showModal := false, form := reset), [post, Send(Fetch(EventsUrl))])
    case Err(_) => Reaction(p, [post, Alert(CreateFailed)])
  }

  /** After a successful create the form is exactly the initial one: the reset values agree
      with the values the panel mounts with, so the next event starts from a blank form with
      a capacity of 100. */
  lemma CreateResetsForm(p: PanelState)
    ensures OnCreate(p, Ok(())).panel.form == Initial.form
    ensures OnCreate(p, Ok(())).panel.form.boothCapacity == 100
    ensures OnCreate(OnCreate(p, Ok(())).panel, Ok(())).panel == OnCreate(p, Ok(())).panel
  {
  }

  /** Delete: a declined confirmation sends nothing and changes nothing. */
  function OnDelete(p: PanelState, eventId: nat, confirmed: bool, o: Outcome<()>): (r: Reaction)
    ensures r.panel == p
    ensures !confirmed <==> r.effects == []
    ensures confirmed && o.Ok? ==> r.effects == [Send(Request(Delete, EventUrl(eventId), [], Json)), Send(Fetch(EventsUrl))]
    ensures confirmed && o.Err? ==> r.effects == [Send(Request(Delete, EventUrl(eventId), [], Json)), Alert(DeleteFailed)]
  {
    if !confirmed then Reaction(p, [])
    else
      var del := Send(Request(Delete, EventUrl(eventId), [], Json));
      match o
      case Ok(_) => Reaction(p, [del, Send(Fetch(EventsUrl))])
      case Err(_) => Reaction(p, [del, Alert(DeleteFailed)])
  }

  /** A declined confirmation is the same no-op whatever the server would have answered. */
  lemma DeclinedDeleteIgnoresOutcome(p: PanelState, eventId: nat, o1: Outcome<()>, o2: Outcome<()>)
    ensures OnDelete(p, eventId, false, o1) == OnDelete(p, eventId, false, o2) == Reaction(p, [])
  {
  }

  /** Once the modal is open for an event, a successful decision refreshes that same
      event's applications and the refreshed list stays on the same event. */
  lemma DecisionRefreshesSameEvent(p: PanelState, eventId: nat, apps: seq<Application>, appId: nat, status: string, booth: Option<string>, refreshed: seq<Application>)
    ensures var shown := FetchApplications(p, Some(eventId), Ok(apps)).panel;
      var update := OnStatusUpdate(shown, appId, status, booth, Ok(()));
      && update.effects[1] == Send(Fetch(ApplicationsOfEventUrl(Some(eventId))))
      && FetchApplications(update.panel, Some(eventId), Ok(refreshed)).panel.selectedEventId == Some(eventId)
  {
  }

  /** Approving and re-fetching: once the server's answer lists the application as
      APPROVED, its row offers no actions any more. */
  lemma ApprovedRowLosesActions(p: PanelState, app: Application, booth: Option<string>, refreshed: seq<Application>, i: nat)
    requires i < |refreshed| && refreshed[i].id == app.id && refreshed[i].status == APPROVED
    ensures var update := OnApprove(p, app, booth, Ok(()));
      var shown := FetchApplications(update.panel, p.selectedEventId, Ok(refreshed)).panel;
      && update.effects[1] == Send(Fetch(ApplicationsOfEventUrl(p.selectedEventId)))
      && shown.applications[i].id == app.id
      && ActionsFor(shown.applications[i]) == NoActionsAvailable
  {
  }
}

=== FILE: admin_login.dfy ===
/** The organiser sign-in page: the admin/non-admin decision after login and the
    dispatches of its submit. */
module AdminLoginPage {
  import opened Common
  import opened Ui
  import opened Auth
  import LoginPage

  const AccessDenied: string := "Access Denied: You are not an Admin."

  datatype AdminEffect = Stay | Go(route: Route) | Deny(message: string)

  /** The page's effect for a session: admins go to the dashboard, any other signed-in
      user gets an alert and stays (no navigation, no logout). */
  function EffectOf(isAuthenticated: bool, user: Option<User>): (e: AdminEffect)
    ensures !isAuthenticated <==> e == Stay
    ensures e.Go? <==> isAuthenticated && HasRole(user, ADMIN)
    ensures e.Go? ==> e.route == DashboardRoute
    ensures e.Deny? ==> e.message == AccessDenied
  {
    if isAuthenticated && RoleOf(user) == Some(ADMIN) then Go(DashboardRoute)
    else if isAuthenticated && RoleOf(user) != Some(ADMIN) then Deny(AccessDenied)
    else Stay
  }

  /** The two sign-in pages agree: wherever this page navigates, the public page navigates
      to the same place, and both stay put for an anonymous session. */
  lemma AgreesWithLoginPage(isAuthenticated: bool, user: Option<User>)
    ensures EffectOf(isAuthenticated, user).Go? ==> LoginPage.Redirect(isAuthenticated, user) == Some(EffectOf(isAuthenticated, user).route)
    ensures EffectOf(isAuthenticated, user) == Stay <==> LoginPage.Redirect(isAuthenticated, user).None?
  {
  }

  /** Submitting the form with what was entered. */
  function OnAdminLogin(email: string, password: string): (ds: seq<Dispatch>)
    ensures |ds| == 2 && ds[0] == Plain(ResetError)
    ensures ds[1] == Async(LoginAdminCall(email, password))
  {
    [Plain(ResetError), Async(LoginAdminCall(email, password))]
  }

  /** The login button is disabled exactly while a request is in flight. */
  function ButtonDisabled(s: Session): (r: bool)
    ensures r <==> s.loading
  {
    s.loading
  }
}

=== FILE: admin_scanner.dfy ===
/** The admin's QR check-in scanner: scanning, waiting for the verification answer, and
    showing the result until the operator asks for the next scan. */
module Scanner {
  import opened Common
  import opened Http

  datatype ScanStatus = ScanSuccess | ScanError

  /** The registration the server returns for a valid ticket (the fields shown). */
  datatype Registration = Registration(id: nat, exhibitionName: Option<string>)

  datatype ScanResult = ScanResult(status: ScanStatus, message: Option<string>, data: Option<Registration>)

  /** The component's two state variables. */
  datatype ScannerState = ScannerState(scanning: bool, result: Option<ScanResult>)

  const Initial: ScannerState := ScannerState(true, None)

  const VerificationFailed: string := "Verification Failed"

  /** The body of a successful verification: `{message, registration}`. */
  datatype VerifyReply = VerifyReply(message: Option<string>, registration: Option<Registration>)

  /** The camera scanner is (re)created only while scanning with no result. */
  predicate ScannerActive(s: ScannerState)
  {
    s.scanning && s.result.None?
  }

  /** The reader area is shown exactly when there is no result. */
  predicate ReaderShown(s: ScannerState)
  {
    s.result.None?
  }

  /** A QR code was decoded: scanning stops at once and the token is sent for
      verification; the result is not known yet. */
  function OnDecoded(s: ScannerState, decodedText: string): (r: (ScannerState, Request))
    ensures !r.0.scanning && !ScannerActive(r.0)
    ensures r.0.result == s.result
    ensures r.1 == Request(Post, VerifyQrUrl, [Field(QrToken, Str(decodedText))], Json)
  {
    (s.(scanning := false), Request(Post, VerifyQrUrl, [Field(QrToken, Str(decodedText))], Json))
  }

  /** The verification request settled. */
  function OnVerified(s: ScannerState, o: Outcome<VerifyReply>): (r: ScannerState)
    ensures r.scanning == s.scanning && r.result.Some?
    ensures o.Ok? ==> r.result.value == ScanResult(ScanSuccess, o.value.message, o.value.registration)
    ensures o.Err? ==> r.result.value.status == ScanError && r.result.value.data.None?
    ensures o.Err? && Present(o.failure.serverError) ==> r.result.value.message == o.failure.serverError
    ensures o.Err? && !Present(o.failure.serverError) ==> r.result.value.message == Some(VerificationFailed)
  {
    match o
    case Ok(reply) =>
      s.(result := Some(ScanResult(ScanSuccess, reply.message, reply.registration)))
    case Err(f) =>
      s.(result := Some(ScanResult(ScanError, Or(f.serverError, Some(VerificationFailed)), None)))
  }

  /** "Scan Next". */
  function OnReset(s: ScannerState): (r: ScannerState)
    ensures ScannerActive(r) && ReaderShown(r)
  {
    Initial
  }

  datatype ScanEvent = Decoded(text: string) | Verified(outcome: Outcome<VerifyReply>) | Reset

  /** One event of the scanner's life: a decode stops the camera, an answer shows its
      result, Scan Next starts over. */
  function Next(s: ScannerState, e: ScanEvent): (r: ScannerState)
    ensures e.Decoded? ==> !r.scanning && r.result == s.result
    ensures e.Verified? ==> r.scanning == s.scanning && r.result.Some?
    ensures e.Reset? ==> ScannerActive(r) && ReaderShown(r)
  {
    match e
    case Decoded(t) => OnDecoded(s, t).0
    case Verified(o) => OnVerified(s, o)
    case Reset => OnReset(s)
  }

  /** The three phases the operator sees: scanning, awaiting the answer, showing a result. */
  datatype Phase = Scanning | Verifying | ShowingResult

  function PhaseOf(s: ScannerState): (p: Phase)
    ensures p == Scanning <==> ScannerActive(s)
    ensures p == ShowingResult <==> !ReaderShown(s)
  {
    if s.result.Some? then ShowingResult else if s.scanning then Scanning else Verifying
  }

  /** The phase transitions: a decode moves scanning to verifying, an answer moves to
      showing the result, and only a reset leaves the result (there is no timeout). */
  lemma PhaseTransitions(s: ScannerState, e: ScanEvent)
    ensures PhaseOf(s) == Scanning && e.Decoded? ==> PhaseOf(Next(s, e)) == Verifying
    ensures e.Verified? ==> PhaseOf(Next(s, e)) == ShowingResult
    ensures e.Reset? ==> Next(s, e) == Initial && PhaseOf(Next(s, e)) == Scanning
    ensures PhaseOf(s) == ShowingResult && !e.Reset? ==> PhaseOf(Next(s, e)) == ShowingResult
  {
  }

  function NextAll(s: ScannerState, es: seq<ScanEvent>): (r: ScannerState)
    ensures s.result.Some? && (forall i | 0 <= i < |es| :: !es[i].Reset?) ==> r.result.Some?
    ensures s.result.None? && (forall i | 0 <= i < |es| :: !es[i].Verified?) ==> r.result.None?
    decreases |es|
  {
    if |es| == 0 then s else NextAll(Next(s, es[0]), es[1..])
  }

  /** A shown result stays on screen through any events until the operator resets, and the
      scanner cannot come back to life in the meantime. */
  lemma ResultHeldUntilReset(s: ScannerState, es: seq<ScanEvent>)
    requires PhaseOf(s) == ShowingResult
    requires forall i | 0 <= i < |es| :: !es[i].Reset?
    ensures PhaseOf(NextAll(s, es)) == ShowingResult
    ensures !ScannerActive(NextAll(s, es))
  {
  }
}

=== FILE: auth.dfy ===
/** The client session: the auth slice's state, its persisted copy in localStorage, the
    reducer over the slice's fourteen actions, and the async thunks that produce them. */
module Auth {
  import opened Common
  import opened Http

  const ADMIN: string := "ADMIN"
  const EXHIBITOR: string := "EXHIBITOR"
  const VISITOR: string := "VISITOR"

  /** The identity record the backend returns; only the fields the client reads. */
  datatype User = User(role: Option<string>, phoneNumber: Option<string>, email: Option<string>)

  /** `user?.role` */
  function RoleOf(user: Option<User>): Option<string>
  {
    if user.Some? then user.value.role else None
  }

  /** `user?.role === role` */
  predicate HasRole(user: Option<User>, role: string)
  {
    RoleOf(user) == Some(role)
  }

  datatype Session = Session(
    user: Option<User>,
    token: Option<string>,
    isAuthenticated: bool,
    loading: bool,
    error: Option<string>,
    otpSent: bool)

  /** The three localStorage keys the slice uses. A `None` slot is a missing key. The
      `user` slot holds the JSON text of a user object or of `null`, represented by the
      value it parses back to. */
  datatype Storage = Storage(
    accessToken: Option<string>,
    refreshToken: Option<string>,
    user: Option<Option<User>>)

  const Cleared: Storage := Storage(None, None, None)

  /** A string field of a response body that may also be `null` or missing. */
  datatype JsText = Undefined | Null | Text(text: string)

  /** What `localStorage.setItem` keeps for a value: its string conversion. */
  function Stringify(v: JsText): string
  {
    match v
    case Undefined => "undefined"
    case Null => "null"
    case Text(s) => s
  }

  /** The value as a nullable string (`undefined` and `null` both read as no token). */
  function AsNullable(v: JsText): Option<string>
  {
    if v.Text? then Some(v.text) else None
  }

  /** The body of a successful login response: `{user, access, refresh}`. */
  datatype AuthPayload = AuthPayload(user: Option<User>, access: JsText, refresh: JsText)

  /** A login payload whose access token survives a reload: a non-empty string. */
  predicate ValidLogin(p: AuthPayload)
  {
    p.access.Text? && p.access.text != ""
  }

  datatype Thunk = SendOtp | VerifyOtp | LoginAdmin | LoginWithGoogle

  /** The three thunks whose success signs the user in. */
  predicate IsLogin(t: Thunk)
  {
    t != SendOtp
  }

  /** The reducer's actions. The body of a successful send-otp response is never read, so
      any payload stands for it. */
  datatype Action =
    | Logout
    | ResetError
    | Pending(thunk: Thunk)
    | Fulfilled(thunk: Thunk, payload: AuthPayload)
    | Rejected(thunk: Thunk, message: string)

  predicate IsLoginSuccess(a: Action)
  {
    a.Fulfilled? && IsLogin(a.thunk)
  }

  /** The fields of the session that describe who is signed in. */
  datatype Credentials = Credentials(user: Option<User>, token: Option<string>, isAuthenticated: bool)

  function CredentialsOf(s: Session): Credentials
  {
    Credentials(s.user, s.token, s.isAuthenticated)
  }

  const Anonymous: Credentials := Credentials(None, None, false)

  datatype AuthState = AuthState(session: Session, storage: Storage)

  /** The session invariant: signed in exactly when a token is held. */
  predicate Consistent(s: Session)
  {
    s.isAuthenticated <==> s.token.Some?
  }

  /** The session as the slice builds it when the page loads. */
  function Init(st: Storage): (s: Session)
    ensures Consistent(s)
    ensures s.isAuthenticated <==> Present(st.accessToken)
    ensures s.token.Some? ==> s.token == st.accessToken && s.token.value != ""
    ensures st.user.Some? ==> s.user == st.user.value
    ensures st.user.None? ==> s.user.None?
    ensures !s.loading && s.error.None? && !s.otpSent
  {
    Session(
      user := if st.user.Some? then st.user.value else None,
      token := if Present(st.accessToken) then st.accessToken else None,
      isAuthenticated := Present(st.accessToken),
      loading := false,
      error := None,
      otpSent := false)
  }

  /** A page load: the store is seeded from storage, and nothing is written back. */
  function Boot(st: Storage): (r: AuthState)
    ensures r.storage == st
    ensures Consistent(r.session) && Synced(r)
    ensures r.session.isAuthenticated <==> Present(st.accessToken)
  {
    AuthState(Init(st), st)
  }

  /** Memory and storage agree: reloading now would give back the same credentials. */
  predicate Synced(w: AuthState)
  {
    CredentialsOf(w.session) == CredentialsOf(Init(w.storage))
  }

  /** The writes of a successful login: all three keys. */
  function Persist(p: AuthPayload): Storage
  {
    Storage(Some(Stringify(p.access)), Some(Stringify(p.refresh)), Some(p.user))
  }

  /** An action after which the invariant `Consistent` still holds. */
  predicate KeepsConsistent(a: Action)
  {
    IsLoginSuccess(a) ==> a.payload.access.Text?
  }

  /** An action after which memory and storage still agree. */
  predicate KeepsSynced(a: Action)
  {
    IsLoginSuccess(a) ==> ValidLogin(a.payload)
  }

  /** The reducer. */
  function Step(w: AuthState, a: Action): (r: AuthState)
    // storage and credentials change only on logout and on a successful login
    ensures r.storage != w.storage ==> a.Logout? || IsLoginSuccess(a)
    ensures CredentialsOf(r.session) != CredentialsOf(w.session) ==> a.Logout? || IsLoginSuccess(a)
    // `loading` is raised by a pending request and lowered by every settlement
    ensures a.Pending? ==> r.session.loading
    ensures a.Fulfilled? || a.Rejected? ==> !r.session.loading
    ensures a.Logout? || a.ResetError? ==> r.session.loading == w.session.loading
    // `error` is cleared by a reset or a new request and set only by a rejection
    ensures r.session.error.Some? ==> (a.Rejected? && r.session.error == Some(a.message)) || (r.session.error == w.session.error && !a.Pending? && !a.ResetError?)
    // `otpSent` is raised only by send-otp success and lowered only by logout
    ensures r.session.otpSent && !w.session.otpSent ==> a.Fulfilled? && a.thunk == SendOtp
    ensures !r.session.otpSent && w.session.otpSent ==> a.Logout?
    ensures Consistent(w.session) && KeepsConsistent(a) ==> Consistent(r.session)
    ensures Synced(w) && KeepsSynced(a) ==> Synced(r)
  {
    var s := w.session;
    match a
    case Logout =>
      AuthState(s.(user := None, token := None, isAuthenticated := false, otpSent := false), Cleared)
    case ResetError =>
      AuthState(s.(error := None), w.storage)
    case Pending(_) =>
      AuthState(s.(loading := true, error := None), w.storage)
    case Fulfilled(t, p) =>
      if t == SendOtp then
        AuthState(s.(loading := false, otpSent := true), w.storage)
      else
        AuthState(s.(loading := false, isAuthenticated := true, user := p.user, token := AsNullable(p.access)), Persist(p))
    case Rejected(_, m) =>
      AuthState(s.(loading := false, error := Some(m)), w.storage)
  }

  /** The reducer folded over a sequence of actions. */
  function Run(w: AuthState, acts: seq<Action>): (r: AuthState)
    ensures Consistent(w.session) && (forall i | 0 <= i < |acts| :: KeepsConsistent(acts[i])) ==> Consistent(r.session)
    ensures Synced(w) && (forall i | 0 <= i < |acts| :: KeepsSynced(acts[i])) ==> Synced(r)
    ensures (forall i | 0 <= i < |acts| :: !acts[i].Logout? && !IsLoginSuccess(acts[i])) ==> r.storage == w.storage && CredentialsOf(r.session) == CredentialsOf(w.session)
    decreases |acts|
  {
    if |acts| == 0 then w else Run(Step(w, acts[0]), acts[1..])
  }

  /** The store keeps no state besides what the reducer returns: running two action
      sequences one after the other is running their concatenation. */
  lemma {:induction false} RunAppend(w: AuthState, xs: seq<Action>, ys: seq<Action>)
    ensures Run(w, xs + ys) == Run(Run(w, xs), ys)
    decreases |xs|
  {
    if |xs| == 0 {
      assert xs + ys == ys;
    } else {
      assert (xs + ys)[1..] == xs[1..] + ys;
      RunAppend(Step(w, xs[0]), xs[1..], ys);
    }
  }

  lemma ResetErrorFrame(w: AuthState)
    ensures Step(w, ResetError) == AuthState(w.session.(error := None), w.storage)
  {
  }

  lemma LogoutClears(w: AuthState)
    ensures var r := Step(w, Logout);
      && CredentialsOf(r.session) == Anonymous
      && !r.session.otpSent
      && r.session.loading == w.session.loading
      && r.session.error == w.session.error
      && r.storage == Cleared
      && Synced(r)
  {
  }

  lemma PendingFrame(w: AuthState, t: Thunk)
    ensures Step(w, Pending(t)) == AuthState(w.session.(loading := true, error := None), w.storage)
  {
  }

  lemma RejectedFrame(w: AuthState, t: Thunk, message: string)
    ensures var r := Step(w, Rejected(t, message));
      && r.session == w.session.(loading := false, error := Some(message))
      && r.storage == w.storage
  {
  }

  lemma SendOtpFulfilledFrame(w: AuthState, p: AuthPayload)
    ensures var r := Step(w, Fulfilled(SendOtp, p));
      && r.session == w.session.(loading := false, otpSent := true)
      && r.storage == w.storage
  {
  }

  /** The three login successes are one transition. */
  lemma LoginFulfilledEffect(w: AuthState, t: Thunk, t': Thunk, p: AuthPayload)
    requires IsLogin(t) && IsLogin(t')
    ensures var r := Step(w, Fulfilled(t, p));
      && r == Step(w, Fulfilled(t', p))
      && r.session.isAuthenticated
      && r.session.user == p.user
      && r.session.token == AsNullable(p.access)
      && !r.session.loading
      && r.session.error == w.session.error
      && r.session.otpSent == w.session.otpSent
      && r.storage == Storage(Some(Stringify(p.access)), Some(Stringify(p.refresh)), Some(p.user))
  {
  }

  /** From a consistent session, a step keeps the invariant exactly when it is not a login
      whose access token is missing or `null`. */
  lemma ConsistentPreservedIff(w: AuthState, a: Action)
    requires Consistent(w.session)
    ensures Consistent(Step(w, a).session) <==> KeepsConsistent(a)
  {
  }

  /** From a synced state, a step keeps memory and storage in agreement exactly when it is
      not a login whose access token is missing, `null` or empty. */
  lemma SyncedPreservedIff(w: AuthState, a: Action)
    requires Synced(w)
    ensures Synced(Step(w, a)) <==> KeepsSynced(a)
  {
    if IsLoginSuccess(a) && !ValidLogin(a.payload) {
      var r := Step(w, a);
      if a.payload.access.Text? {
        assert Init(r.storage).token.None?;
      } else {
        assert Init(r.storage).token == Some(Stringify(a.payload.access));
      }
    }
  }

  /** Persist-then-reload: re-initialising from storage right after a login reproduces the
      credentials exactly when the access token is a non-empty string. */
  lemma ReloadAfterLogin(w: AuthState, t: Thunk, p: AuthPayload)
    requires IsLogin(t)
    ensures var r := Step(w, Fulfilled(t, p));
      CredentialsOf(Init(r.storage)) == CredentialsOf(r.session) <==> ValidLogin(p)
  {
    var r := Step(w, Fulfilled(t, p));
    if !ValidLogin(p) {
      if p.access.Text? {
        assert Init(r.storage).token.None?;
      } else {
        assert Init(r.storage).token == Some(Stringify(p.access));
      }
    }
  }

  /** From any page load, after any actions whose logins carry a usable token, a reload
      gives back the credentials held in memory. */
  lemma ReloadAnywhere(st: Storage, acts: seq<Action>)
    requires forall i | 0 <= i < |acts| :: KeepsSynced(acts[i])
    ensures var r := Run(Boot(st), acts);
      CredentialsOf(Init(r.storage)) == CredentialsOf(r.session) && Consistent(r.session)
  {
  }

  /** The arguments of a dispatched thunk. */
  datatype Call =
    | SendOtpCall(phoneNumber: string)
    | VerifyOtpCall(phoneNumber: string, otp: string)
    | LoginAdminCall(email: string, password: string)
    | GoogleCall(providerToken: string)

  function ThunkOf(c: Call): Thunk
  {
    match c
    case SendOtpCall(_) => SendOtp
    case VerifyOtpCall(_, _) => VerifyOtp
    case LoginAdminCall(_, _) => LoginAdmin
    case GoogleCall(_) => LoginWithGoogle
  }

  /** The POST a thunk sends. */
  function RequestOf(c: Call): (r: Request)
    ensures r.verb == Post && r.encoding == Json
    ensures c.SendOtpCall? ==> (r.url == SendOtpUrl && Names(r.body) == [PhoneNumber]
      && Lookup(r.body, PhoneNumber) == Some(Str(c.phoneNumber)))
    ensures c.VerifyOtpCall? ==> (r.url == VerifyOtpUrl && Names(r.body) == [PhoneNumber, Otp]
      && Lookup(r.body, PhoneNumber) == Some(Str(c.phoneNumber)) && Lookup(r.body, Otp) == Some(Str(c.otp)))
    ensures c.LoginAdminCall? ==> (r.url == LoginUrl && Names(r.body) == [Email, Password]
      && Lookup(r.body, Email) == Some(Str(c.email)) && Lookup(r.body, Password) == Some(Str(c.password)))
    ensures c.GoogleCall? ==> (r.url == GoogleUrl && Names(r.body) == [Token]
      && Lookup(r.body, Token) == Some(Str(c.providerToken)))
  {
    match c
    case SendOtpCall(phone) =>
      Request(Post, SendOtpUrl, [Field(PhoneNumber, Str(phone))], Json)
    case VerifyOtpCall(phone, otp) =>
      var keys, values := [PhoneNumber, Otp], [Str(phone), Str(otp)];
      NamesZip(keys, values);
      LookupZip(keys, values, 0);
      LookupZip(keys, values, 1);
      Request(Post, VerifyOtpUrl, Zip(keys, values), Json)
    case LoginAdminCall(email, password) =>
      var keys, values := [Email, Password], [Str(email), Str(password)];
      NamesZip(keys, values);
      LookupZip(keys, values, 0);
      LookupZip(keys, values, 1);
      Request(Post, LoginUrl, Zip(keys, values), Json)
    case GoogleCall(token) =>
      Request(Post, GoogleUrl, [Field(Token, Str(token))], Json)
  }

  /** The lifecycle actions of one thunk whose request settles with `o`. */
  function Settle(c: Call, o: Outcome<AuthPayload>): (acts: seq<Action>)
    ensures |acts| == 2 && acts[0] == Pending(ThunkOf(c))
    ensures o.Ok? ==> acts[1] == Fulfilled(ThunkOf(c), o.value)
    ensures o.Err? ==> acts[1] == Rejected(ThunkOf(c), o.failure.message)
  {
    match o
    case Ok(p) => [Pending(ThunkOf(c)), Fulfilled(ThunkOf(c), p)]
    case Err(f) => [Pending(ThunkOf(c)), Rejected(ThunkOf(c), f.message)]
  }

  /** What a page hands to `dispatch`: a plain action or a thunk. */
  datatype Dispatch = Plain(action: Action) | Async(call: Call)

  /** The actions one dispatch produces: a plain action as it is, a thunk as its pending
      and settling pair. */
  function Actions(d: Dispatch, o: Outcome<AuthPayload>): seq<Action>
  {
    if d.Plain? then [d.action] else Settle(d.call, o)
  }

  /** The reducer actions a sequence of dispatches produces when every thunk among them
      settles with `o`. */
  function Expand(ds: seq<Dispatch>, o: Outcome<AuthPayload>): (acts: seq<Action>)
    ensures |ds| == 1 && ds[0].Plain? ==> acts == [ds[0].action]
    ensures |ds| == 1 && ds[0].Async? ==> acts == Settle(ds[0].call, o)
    ensures |ds| == 0 ==> acts == []
    decreases |ds|
  {
    if |ds| == 0 then [] else Actions(ds[0], o) + Expand(ds[1..], o)
  }

  /** Dispatching one sequence after another expands to the one expansion after the other. */
  lemma {:induction false} ExpandAppend(xs: seq<Dispatch>, ys: seq<Dispatch>, o: Outcome<AuthPayload>)
    ensures Expand(xs + ys, o) == Expand(xs, o) + Expand(ys, o)
    decreases |xs|
  {
    if |xs| == 0 {
      assert xs + ys == ys;
    } else {
      var head := Actions(xs[0], o);
      assert (xs + ys)[0] == xs[0];
      assert (xs + ys)[1..] == xs[1..] + ys;
      assert Expand(xs + ys, o) == head + Expand(xs[1..] + ys, o);
      ExpandAppend(xs[1..], ys, o);
      assert Expand(xs, o) == head + Expand(xs[1..], o);
      assert head + (Expand(xs[1..], o) + Expand(ys, o)) == (head + Expand(xs[1..], o)) + Expand(ys, o);
    }
  }

  /** What one thunk does to the store, start to finish: the request is no longer in flight,
      a failure shows its message and changes nothing else that matters, a send-otp success
      shows the OTP form, and a login success signs in with the returned user. */
  lemma SettleEffect(w: AuthState, c: Call, o: Outcome<AuthPayload>)
    ensures var r := Run(w, Settle(c, o));
      && !r.session.loading
      && r.session.error == (if o.Err? then Some(o.failure.message) else None)
      && (o.Err? ==> CredentialsOf(r.session) == CredentialsOf(w.session) && r.session.otpSent == w.session.otpSent && r.storage == w.storage)
      && (o.Ok? && c.SendOtpCall? ==> r.session.otpSent && r.storage == w.storage && CredentialsOf(r.session) == CredentialsOf(w.session))
      && (o.Ok? && !c.SendOtpCall? ==> r.session.isAuthenticated && r.session.user == o.value.user && r.storage == Persist(o.value))
  {
    var acts := Settle(c, o);
    var w1 := Step(w, acts[0]);
    assert acts[1..] == [acts[1]];
    assert [acts[1]][1..] == [];
    assert Run(w1, [acts[1]]) == Step(w1, acts[1]);
  }
}
=== FILE: common.dfy ===
/** Small wrappers shared by every part of the model: nullable values, the outcome of a
    network request, and JavaScript's truthiness of a nullable string. */
module Common {

  /** A JavaScript value that may be `null`/`undefined`. */
  datatype Option<+T> = None | Some(value: T)

  /** What a failed request tells the client: the transport error's `message`, and the
      `error` field of the response body when the server sent one. */
  datatype Failure = Failure(message: string, serverError: Option<string>)

  /** The settled result of one HTTP request, as the calling code sees it. */
  datatype Outcome<+T> = Ok(value: T) | Err(failure: Failure)

  /** Truthiness of a nullable string: `null`, `undefined` and `""` are falsy. */
  predicate Present(s: Option<string>)
  {
    s.Some? && s.value != ""
  }

  /** The expression `a || b` on nullable strings. */
  function Or(a: Option<string>, b: Option<string>): (r: Option<string>)
    ensures Present(a) ==> r == a
    ensures !Present(a) ==> r == b
    ensures Present(r) <==> Present(a) || Present(b)
  {
    if Present(a) then a else b
  }
}

=== FILE: dashboard.dfy ===
/** The signed-in shell: which panel a role sees, the Switch Role link, the identity label
    and the logout button. */
module DashboardPage {
  import opened Common
  import opened Auth

  datatype PanelView = AdminPanel | ExhibitorPanel | VisitorPanel | UnknownRole

  /** The role switch of the main area. */
  function PanelFor(user: Option<User>): (v: PanelView)
    ensures v == AdminPanel <==> HasRole(user, ADMIN)
    ensures v == ExhibitorPanel <==> HasRole(user, EXHIBITOR)
    ensures v == VisitorPanel <==> HasRole(user, VISITOR)
    ensures v == UnknownRole <==> !HasRole(user, ADMIN) && !HasRole(user, EXHIBITOR) && !HasRole(user, VISITOR)
  {
    match RoleOf(user)
    case Some(r) =>
      if r == ADMIN then AdminPanel
      else if r == EXHIBITOR then ExhibitorPanel
      else if r == VISITOR then VisitorPanel
      else UnknownRole
    case None => UnknownRole
  }

  /** The Switch Role link is offered to everyone but admins, a missing user included. */
  function SwitchRoleShown(user: Option<User>): (shown: bool)
    ensures shown <==> !HasRole(user, ADMIN)
    ensures shown <==> PanelFor(user) != AdminPanel
    ensures user.None? ==> shown
  {
    RoleOf(user) != Some(ADMIN)
  }

  /** `user?.phone_number || user?.email`; also the greeting of the role-selection page. */
  function IdentityLabel(user: Option<User>): (shown: Option<string>)
    ensures user.None? ==> shown.None?
    ensures user.Some? && Present(user.value.phoneNumber) ==> shown == user.value.phoneNumber
    ensures user.Some? && !Present(user.value.phoneNumber) ==> shown == user.value.email
    ensures Present(shown) <==> user.Some? && (Present(user.value.phoneNumber) || Present(user.value.email))
  {
    if user.Some? then Or(user.value.phoneNumber, user.value.email) else None
  }

  /** The logout button. */
  function OnLogoutClick(): (ds: seq<Dispatch>)
    ensures ds == [Plain(Logout)]
  {
    [Plain(Logout)]
  }
}

=== FILE: exhibitor_dashboard.dfy ===
/** The exhibitor panel: events with their apply/applied button, the exhibitor's own
    applications, and the properties listed under an approved application. */
module ExhibitorPanel {
  import opened Common
  import opened Http
  import opened Ui
  import opened Records

  datatype View = AllEvents | MyApplications | MyProperties

  /** The booth application form; the screenshot is the chosen file, if any. */
  datatype AppForm = AppForm(
    companyName: string, councilArea: string, businessType: string, contactDetails: string,
    paymentScreenshot: Option<string>)

  const DefaultAppForm: AppForm := AppForm("", "", "Developer", "", None)

  datatype PropertyForm = PropertyForm(title: string, location: string, priceMin: string, priceMax: string, description: string)

  const EmptyPropertyForm: PropertyForm := PropertyForm("", "", "", "", "")

  datatype DashState = DashState(
    events: seq<Exhibition>,
    myApplications: seq<Application>,
    view: View,
    showAppModal: bool,
    selectedEventId: Option<nat>,
    appForm: AppForm,
    approvedApps: seq<Application>,
    properties: seq<Property>,
    showPropModal: bool,
    selectedAppId: Option<nat>,
    propForm: PropertyForm)

  /** The panel as it mounts: nothing loaded, the events tab, no selection. */
  const Initial: DashState := DashState([], [], AllEvents, false, None, DefaultAppForm, [], [], false, None, EmptyPropertyForm)

  datatype Reaction = Reaction(dash: DashState, effects: seq<Effect>)

  /** The events list arrived; a failure is only logged. */
  function OnEventsLoaded(d: DashState, o: Outcome<seq<Exhibition>>): (r: DashState)
    ensures o.Ok? ==> r.events == o.value
    ensures r.(events := d.events) == d
    ensures o.Err? ==> r == d
  {
    match o
    case Ok(list) => d.(events := list)
    case Err(_) => d
  }

  /** The exhibitor's applications arrived; a failure is only logged. */
  function OnApplicationsLoaded(d: DashState, o: Outcome<seq<Application>>): (r: DashState)
    ensures o.Ok? ==> r.myApplications == o.value
    ensures r.(myApplications := d.myApplications) == d
    ensures o.Err? ==> r == d
  {
    match o
    case Ok(list) => d.(myApplications := list)
    case Err(_) => d
  }

  /** The properties of the selected application arrived; a failure is only logged. */
  function OnPropertiesLoaded(d: DashState, o: Outcome<seq<Property>>): (r: DashState)
    ensures o.Ok? ==> r.properties == o.value
    ensures r.(properties := d.properties) == d
    ensures o.Err? ==> r == d
  {
    match o
    case Ok(list) => d.(properties := list)
    case Err(_) => d
  }

  /** Truthiness of an id: no id, and the id 0, are falsy. */
  predicate IdTruthy(id: Option<nat>)
  {
    id.Some? && id.value != 0
  }

  /** The approved applications. */
  function Approved(apps: seq<Application>): (r: seq<Application>)
    ensures |r| <= |apps|
    ensures forall i | 0 <= i < |r| :: r[i].status == APPROVED && r[i] in apps
    ensures forall i | 0 <= i < |apps| :: apps[i].status == APPROVED ==> apps[i] in r
    decreases |apps|
  {
    if |apps| == 0 then []
    else if apps[0].status == APPROVED then [apps[0]] + Approved(apps[1..])
    else Approved(apps[1..])
  }

  /** The filter keeps the original order: it distributes over concatenation. */
  lemma {:induction false} ApprovedAppend(a: seq<Application>, b: seq<Application>)
    ensures Approved(a + b) == Approved(a) + Approved(b)
    decreases |a|
  {
    if |a| == 0 {
      assert a + b == b;
    } else {
      assert (a + b)[0] == a[0];
      assert (a + b)[1..] == a[1..] + b;
      ApprovedAppend(a[1..], b);
    }
  }

  /** The selection the first effect makes: the first approved application, but only on
      the properties tab and only when nothing (truthy) is selected yet. */
  function AutoSelect(approved: seq<Application>, view: View, selected: Option<nat>): (r: Option<nat>)
    ensures r != selected ==> |approved| > 0 && view == MyProperties && !IdTruthy(selected) && r == Some(approved[0].id)
    ensures |approved| > 0 && view == MyProperties && !IdTruthy(selected) ==> r == Some(approved[0].id)
  {
    if |approved| > 0 && view == MyProperties && !IdTruthy(selected) then Some(approved[0].id) else selected
  }

  /** The effect on `[myApplications, view]`. */
  function Refilter(d: DashState): (r: DashState)
    ensures r.approvedApps == Approved(d.myApplications)
    ensures r.selectedAppId == AutoSelect(r.approvedApps, d.view, d.selectedAppId)
    ensures r == d.(approvedApps := r.approvedApps, selectedAppId := r.selectedAppId)
  {
    var approved := Approved(d.myApplications);
    d.(approvedApps := approved, selectedAppId := AutoSelect(approved, d.view, d.selectedAppId))
  }

  /** Properties are fetched only for a (truthy) selection on the properties tab. */
  predicate ShouldFetchProperties(selected: Option<nat>, view: View)
  {
    IdTruthy(selected) && view == MyProperties
  }

  /** The effect on `[selectedAppId, view]`. */
  function PropertiesFetch(d: DashState): (effects: seq<Effect>)
    ensures effects != [] <==> ShouldFetchProperties(d.selectedAppId, d.view)
    ensures effects != [] ==> effects == [Send(Fetch(PropertiesOfUrl(d.selectedAppId)))]
  {
    if ShouldFetchProperties(d.selectedAppId, d.view) then [Send(Fetch(PropertiesOfUrl(d.selectedAppId)))] else []
  }

  /** On the properties tab, after the filter runs, a properties fetch follows exactly when
      a selection already existed or the first approved application has a non-zero id; the
      auto-selected application is an approved one. */
  lemma RefilterThenFetch(d: DashState)
    requires d.view == MyProperties
    ensures var r := Refilter(d);
      var approved := Approved(d.myApplications);
      && (PropertiesFetch(r) != [] <==> IdTruthy(d.selectedAppId) || (|approved| > 0 && approved[0].id != 0))
      && (!IdTruthy(d.selectedAppId) && |approved| > 0 ==>
            exists i | 0 <= i < |d.myApplications| :: d.myApplications[i].status == APPROVED && Some(d.myApplications[i].id) == r.selectedAppId)
  {
    var approved := Approved(d.myApplications);
    if !IdTruthy(d.selectedAppId) && |approved| > 0 {
      assert approved[0] in d.myApplications;
    }
  }

  /** The 'My Properties' tab appears when the approved list is non-empty. */
  predicate PropertiesTabShown(d: DashState)
  {
    |d.approvedApps| > 0
  }

  /** Once the filter has run, the 'My Properties' tab is shown exactly when one of the
      exhibitor's applications is approved. */
  lemma PropertiesTabAfterRefilter(d: DashState)
    ensures PropertiesTabShown(Refilter(d)) <==> exists i | 0 <= i < |d.myApplications| :: d.myApplications[i].status == APPROVED
  {
    var approved := Approved(d.myApplications);
    if |approved| > 0 {
      assert approved[0] in d.myApplications;
      var i :| 0 <= i < |d.myApplications| && d.myApplications[i] == approved[0];
      assert d.myApplications[i].status == APPROVED;
    }
    if exists i | 0 <= i < |d.myApplications| :: d.myApplications[i].status == APPROVED {
      var i :| 0 <= i < |d.myApplications| && d.myApplications[i].status == APPROVED;
      assert d.myApplications[i] in approved;
    }
  }

  /** The first load: once the applications arrive the filter has run on them, nothing is
      selected and no properties are fetched (the panel opens on the events tab), and the
      properties tab appears exactly when an application is approved. */
  lemma FirstLoad(apps: seq<Application>)
    ensures var d := Refilter(OnApplicationsLoaded(Initial, Ok(apps)));
      && d.approvedApps == Approved(apps)
      && d.selectedAppId.None?
      && PropertiesFetch(d) == []
      && (PropertiesTabShown(d) <==> exists i | 0 <= i < |apps| :: apps[i].status == APPROVED)
  {
    PropertiesTabAfterRefilter(OnApplicationsLoaded(Initial, Ok(apps)));
  }

  /** The index of the first application for the given exhibition (`Array.find`). */
  function FirstMatch(apps: seq<Application>, eventId: nat): (r: Option<nat>)
    ensures r.Some? ==> r.value < |apps| && apps[r.value].exhibition == eventId
    ensures r.Some? ==> forall j | 0 <= j < r.value :: apps[j].exhibition != eventId
    ensures r.None? <==> forall j | 0 <= j < |apps| :: apps[j].exhibition != eventId
    decreases |apps|
  {
    if |apps| == 0 then None
    else if apps[0].exhibition == eventId then Some(0)
    else match FirstMatch(apps[1..], eventId)
      case None => None
      case Some(k) => Some(k + 1)
  }

  datatype EventButton = ApplyForBooth | ApprovedBadge | ApplicationSent

  /** The button under an event card. */
  function ButtonFor(apps: seq<Application>, eventId: nat): (b: EventButton)
    ensures b == ApplyForBooth <==> forall j | 0 <= j < |apps| :: apps[j].exhibition != eventId
  {
    match FirstMatch(apps, eventId)
    case None => ApplyForBooth
    case Some(i) => if apps[i].status == APPROVED then ApprovedBadge else ApplicationSent
  }

  /** The first application for the event decides its badge; later ones are ignored. */
  lemma ButtonDecidedByFirstMatch(apps: seq<Application>, eventId: nat, i: nat)
    requires i < |apps| && apps[i].exhibition == eventId
    requires forall j | 0 <= j < i :: apps[j].exhibition != eventId
    ensures ButtonFor(apps, eventId) == (if apps[i].status == APPROVED then ApprovedBadge else ApplicationSent)
  {
  }

  /** Apply for Booth: remember the event and open the form. */
  function OnApply(d: DashState, eventId: nat): (r: DashState)
    ensures r.selectedEventId == Some(eventId) && r.showAppModal
    ensures r.(selectedEventId := d.selectedEventId, showAppModal := d.showAppModal) == d
  {
    d.(selectedEventId := Some(eventId), showAppModal := true)
  }

  const ApplicationFields: seq<Key> := [CompanyName, CouncilArea, BusinessType, ContactDetails, ExhibitionId]

  /** The same fields with the payment screenshot appended. */
  const ApplicationFieldsWithFile: seq<Key> :=
    [CompanyName, CouncilArea, BusinessType, ContactDetails, ExhibitionId, PaymentScreenshot]

  lemma ApplicationFieldsDistinct()
    ensures Distinct(ApplicationFields) && Distinct(ApplicationFieldsWithFile)
    ensures ApplicationFieldsWithFile == ApplicationFields + [PaymentScreenshot]
    ensures PaymentScreenshot !in ApplicationFields
  {
  }

  /** The values of a booth application, in the order of `ApplicationFields`, followed by
      the chosen file if there is one. */
  function ApplicationValues(f: AppForm, eventId: Option<nat>): seq<Value>
  {
    var exhibition := if eventId.Some? then Num(eventId.value) else Null;
    match f.paymentScreenshot
    case Some(file) =>
      [Str(f.companyName), Str(f.councilArea), Str(f.businessType), Str(f.contactDetails), exhibition, Upload(file)]
    case None =>
      [Str(f.companyName), Str(f.councilArea), Str(f.businessType), Str(f.contactDetails), exhibition]
  }

  /** The multipart body of a booth application: the form fields and the event, then the
      screenshot when a file was chosen. */
  function ApplicationBody(f: AppForm, eventId: Option<nat>): (body: seq<Field>)
    ensures f.paymentScreenshot.Some? ==> Names(body) == ApplicationFields + [PaymentScreenshot]
    ensures f.paymentScreenshot.None? ==> Names(body) == ApplicationFields
    ensures PaymentScreenshot in Names(body) <==> f.paymentScreenshot.Some?
    ensures |body| >= 5 && body[4].value == (if eventId.Some? then Num(eventId.value) else Null)
    ensures f.paymentScreenshot.Some? ==> body[5].value == Upload(f.paymentScreenshot.value)
  {
    ApplicationFieldsDistinct();
    var keys := if f.paymentScreenshot.Some? then ApplicationFieldsWithFile else ApplicationFields;
    var values := ApplicationValues(f, eventId);
    NamesZip(keys, values);
    var body := Zip(keys, values);
    assert body[4] == Field(keys[4], values[4]);
    assert f.paymentScreenshot.Some? ==> body[5] == Field(keys[5], values[5]);
    body
  }

  /** Every field of the application carries the form's value (the event's id, or null
      when none is selected), and the screenshot field carries the chosen file. */
  lemma ApplicationBodyCarriesForm(f: AppForm, eventId: Option<nat>)
    ensures Lookup(ApplicationBody(f, eventId), CompanyName) == Some(Str(f.companyName))
    ensures Lookup(ApplicationBody(f, eventId), CouncilArea) == Some(Str(f.councilArea))
    ensures Lookup(ApplicationBody(f, eventId), BusinessType) == Some(Str(f.businessType))
    ensures Lookup(ApplicationBody(f, eventId), ContactDetails) == Some(Str(f.contactDetails))
    ensures Lookup(ApplicationBody(f, eventId), ExhibitionId) == Some(if eventId.Some? then Num(eventId.value) else Null)
    ensures f.paymentScreenshot.Some? ==> Lookup(ApplicationBody(f, eventId), PaymentScreenshot) == Some(Upload(f.paymentScreenshot.value))
  {
    var values := ApplicationValues(f, eventId);
    ApplicationFieldsDistinct();
    if f.paymentScreenshot.Some? {
      var keys := ApplicationFieldsWithFile;
      LookupZip(keys, values, 0); LookupZip(keys, values, 1); LookupZip(keys, values, 2);
      LookupZip(keys, values, 3); LookupZip(keys, values, 4); LookupZip(keys, values, 5);
    } else {
      var keys := ApplicationFields;
      LookupZip(keys, values, 0); LookupZip(keys, values, 1); LookupZip(keys, values, 2);
      LookupZip(keys, values, 3); LookupZip(keys, values, 4);
    }
  }

  const Submitted: string := "Application Submitted Successfully!"
  const SubmissionFailed: string := "Submission Failed. Please check all fields."

  /** Submitting the booth application. On success the modal closes and the exhibitor's
      applications are re-fetched; the form keeps its contents either way. */
  function OnSubmitApplication(d: DashState, o: Outcome<()>): (r: Reaction)
    ensures |r.effects| >= 2
    ensures r.effects[0] == Send(Request(Post, ApplicationsUrl, ApplicationBody(d.appForm, d.selectedEventId), Multipart))
    ensures r.dash.appForm == d.appForm
    ensures o.Ok? ==> r.dash == d.(showAppModal := false) && r.effects[1..] == [Alert(Submitted), Send(Fetch(ApplicationsUrl))]
    ensures o.Err? ==> r.dash == d && r.effects[1..] == [Alert(SubmissionFailed)]
  {
    var post := Send(Request(Post, ApplicationsUrl, ApplicationBody(d.appForm, d.selectedEventId), Multipart));
    match o
    case Ok(_) => Reaction(d.(showAppModal := false), [post, Alert(Submitted), Send(Fetch(ApplicationsUrl))])
    case Err(_) => Reaction(d, [post, Alert(SubmissionFailed)])
  }

  const PropertyFields: seq<Key> := [Title, Location, PriceMin, PriceMax, Description, ExhibitorApplication]

  lemma PropertyFieldsDistinct()
    ensures Distinct(PropertyFields)
  {
  }

  /** The form fields followed by the application they belong to. */
  function PropertyBody(f: PropertyForm, appId: nat): (body: seq<Field>)
    ensures Names(body) == PropertyFields
  {
    var values := [Str(f.title), Str(f.location), Str(f.priceMin), Str(f.priceMax), Str(f.description), Num(appId)];
    NamesZip(PropertyFields, values);
    Zip(PropertyFields, values)
  }

  /** Every field of the property carries the form's value, and the application field the
      selected application's id. */
  lemma PropertyBodyCarriesForm(f: PropertyForm, appId: nat)
    ensures Lookup(PropertyBody(f, appId), Title) == Some(Str(f.title))
    ensures Lookup(PropertyBody(f, appId), Location) == Some(Str(f.location))
    ensures Lookup(PropertyBody(f, appId), PriceMin) == Some(Str(f.priceMin))
    ensures Lookup(PropertyBody(f, appId), PriceMax) == Some(Str(f.priceMax))
    ensures Lookup(PropertyBody(f, appId), Description) == Some(Str(f.description))
    ensures Lookup(PropertyBody(f, appId), ExhibitorApplication) == Some(Num(appId))
  {
    var values := [Str(f.title), Str(f.location), Str(f.priceMin), Str(f.priceMax), Str(f.description), Num(appId)];
    assert PropertyBody(f, appId) == Zip(PropertyFields, values);
    PropertyFieldsDistinct();
    LookupZip(PropertyFields, values, 0); LookupZip(PropertyFields, values, 1);
    LookupZip(PropertyFields, values, 2); LookupZip(PropertyFields, values, 3);
    LookupZip(PropertyFields, values, 4); LookupZip(PropertyFields, values, 5);
  }

  const PropertyFailed: string := "Failed to add property"

  /** Adding a property: nothing at all without a (truthy) selected application. */
  function OnSubmitProperty(d: DashState, o: Outcome<()>): (r: Reaction)
    ensures !IdTruthy(d.selectedAppId) ==> r == Reaction(d, [])
    ensures IdTruthy(d.selectedAppId) ==> |r.effects| == 2
    ensures IdTruthy(d.selectedAppId) ==> r.effects[0] == Send(Request(Post, PropertiesUrl, PropertyBody(d.propForm, d.selectedAppId.value), Json))
    ensures IdTruthy(d.selectedAppId) && o.Ok? ==>
      && r.dash == d.(showPropModal := false, propForm := EmptyPropertyForm)
      && r.effects[1] == Send(Fetch(PropertiesOfUrl(d.selectedAppId)))
    ensures IdTruthy(d.selectedAppId) && o.Err? ==> r.effects[1] == Alert(PropertyFailed)
    ensures o.Err? ==> r.dash == d
  {
    if !IdTruthy(d.selectedAppId) then Reaction(d, [])
    else
      var post := Send(Request(Post, PropertiesUrl, PropertyBody(d.propForm, d.selectedAppId.value), Json));
      match o
      case Ok(_) => Reaction(d.(showPropModal := false, propForm := EmptyPropertyForm), [post, Send(Fetch(PropertiesOfUrl(d.selectedAppId)))])
      case Err(_) => Reaction(d, [post, Alert(PropertyFailed)])
  }

  /** Deleting a property: confirm-gated; a failure is not caught, so nothing follows it. */
  function OnDeleteProperty(d: DashState, propertyId: nat, confirmed: bool, o: Outcome<()>): (r: Reaction)
    ensures r.dash == d
    ensures !confirmed <==> r.effects == []
    ensures confirmed ==> r.effects[0] == Send(Request(Delete, PropertyUrl(propertyId), [], Json))
    ensures confirmed && o.Err? ==> |r.effects| == 1
    ensures confirmed && o.Ok? ==> r.effects[1..] == [Send(Fetch(PropertiesOfUrl(d.selectedAppId)))]
  {
    if !confirmed then Reaction(d, [])
    else
      var del := Send(Request(Delete, PropertyUrl(propertyId), [], Json));
      match o
      case Ok(_) => Reaction(d, [del, Send(Fetch(PropertiesOfUrl(d.selectedAppId)))])
      case Err(_) => Reaction(d, [del])
  }

  /** A declined confirmation is the same no-op whatever the server would have answered. */
  lemma DeclinedDeleteIgnoresOutcome(d: DashState, propertyId: nat, o1: Outcome<()>, o2: Outcome<()>)
    ensures OnDeleteProperty(d, propertyId, false, o1) == OnDeleteProperty(d, propertyId, false, o2) == Reaction(d, [])
  {
  }

  /** The left border of an application card. */
  function BorderColour(status: string): (c: string)
    ensures c == "green" <==> status == APPROVED
    ensures c == "red" <==> status == REJECTED
    ensures c == "orange" <==> status != APPROVED && status != REJECTED
  {
    if status == APPROVED then "green" else if status == REJECTED then "red" else "orange"
  }

  /** A card is drawn green exactly when its application passes the approved filter. */
  lemma GreenExactlyWhenApproved(apps: seq<Application>, i: nat)
    requires i < |apps|
    ensures BorderColour(apps[i].status) == "green" <==> apps[i] in Approved(apps)
  {
    var r := Approved(apps);
    if apps[i] in r {
      var j :| 0 <= j < |r| && r[j] == apps[i];
      assert r[j].status == APPROVED;
    }
  }
}

=== FILE: flows.dfy ===
/** End-to-end behaviour across pages: what the user sees after each sign-in path, the
    role switch with its reload, and logout. Every thunk settles with a given outcome. */
module Flows {
  import opened Common
  import opened Ui
  import opened Auth
  import LoginPage
  import AdminLoginPage
  import DashboardPage
  import RoleSelectionPage

  /** A reset followed by one thunk becomes reset, pending, settlement. */
  lemma ExpandResetThen(c: Call, o: Outcome<AuthPayload>)
    ensures Expand([Plain(ResetError), Async(c)], o) == [ResetError] + Settle(c, o)
  {
  }

  /** Running a reset and a settled thunk from `w`. */
  lemma RunResetThen(w: AuthState, c: Call, o: Outcome<AuthPayload>)
    ensures Run(w, Expand([Plain(ResetError), Async(c)], o)) == Step(Step(Step(w, ResetError), Pending(ThunkOf(c))), Settle(c, o)[1])
  {
    ExpandResetThen(c, o);
    var last := Settle(c, o)[1];
    var acts := [ResetError] + Settle(c, o);
    assert acts == [ResetError, Pending(ThunkOf(c)), last];
    var w1 := Step(w, ResetError);
    var w2 := Step(w1, Pending(ThunkOf(c)));
    assert acts[1..] == [Pending(ThunkOf(c)), last];
    assert [Pending(ThunkOf(c)), last][1..] == [last];
    assert [last][1..] == [];
    assert Run(w2, [last]) == Run(Step(w2, last), []);
    assert Run(w1, [Pending(ThunkOf(c)), last]) == Run(w2, [last]);
    assert Run(w, acts) == Run(w1, [Pending(ThunkOf(c)), last]);
  }

  /** A page's submit, a reset followed by one thunk, from start to finish: no error from
      an earlier attempt survives, the request is no longer in flight, and a failure leaves
      the credentials, the form switch and storage as they were. */
  lemma ResetThenThunk(w: AuthState, c: Call, o: Outcome<AuthPayload>)
    ensures var r := Run(w, Expand([Plain(ResetError), Async(c)], o));
      && !r.session.loading
      && r.session.error == (if o.Err? then Some(o.failure.message) else None)
      && (o.Err? ==> CredentialsOf(r.session) == CredentialsOf(w.session) && r.session.otpSent == w.session.otpSent && r.storage == w.storage)
      && (o.Ok? && c.SendOtpCall? ==> r.session.otpSent && r.storage == w.storage && CredentialsOf(r.session) == CredentialsOf(w.session))
      && (o.Ok? && !c.SendOtpCall? ==> r.session.isAuthenticated && r.session.user == o.value.user && r.storage == Persist(o.value))
  {
    RunResetThen(w, c, o);
    var w1 := Step(w, ResetError);
    SettleEffect(w1, c, o);
    var acts := Settle(c, o);
    assert acts[1..] == [acts[1]];
    assert [acts[1]][1..] == [];
    assert Run(w1, acts) == Step(Step(w1, acts[0]), acts[1]);
  }

  /** Submitting the phone form: the OTP is requested for the typed number; success shows
      the OTP form with nothing signed in or stored, failure shows the message. */
  lemma SendOtpSubmit(w: AuthState, f: LoginPage.LoginForm, o: Outcome<AuthPayload>)
    ensures var ds := LoginPage.OnSendOtp(f);
      var r := Run(w, Expand(ds, o));
      && ds[1].Async? && Http.Lookup(RequestOf(ds[1].call).body, Http.PhoneNumber) == Some(Http.Str(f.phoneNumber))
      && !r.session.loading
      && r.session.error == (if o.Err? then Some(o.failure.message) else None)
      && CredentialsOf(r.session) == CredentialsOf(w.session) && r.storage == w.storage
      && (o.Ok? ==> LoginPage.ViewOf(r.session).form == LoginPage.OtpForm)
      && (o.Err? ==> r.session.otpSent == w.session.otpSent)
  {
    ResetThenThunk(w, SendOtpCall(f.phoneNumber), o);
  }

  /** Submitting the OTP form: the typed number and code are checked; success signs in with
      the returned user, persists the answer and triggers the redirect, failure shows the
      message and signs nobody in. */
  lemma VerifyOtpSubmit(w: AuthState, f: LoginPage.LoginForm, o: Outcome<AuthPayload>)
    ensures var ds := LoginPage.OnVerifyOtp(f);
      var r := Run(w, Expand(ds, o));
      && ds[1].Async? && RequestOf(ds[1].call).url == Http.VerifyOtpUrl
      && Http.Lookup(RequestOf(ds[1].call).body, Http.PhoneNumber) == Some(Http.Str(f.phoneNumber))
      && Http.Lookup(RequestOf(ds[1].call).body, Http.Otp) == Some(Http.Str(f.otp))
      && !r.session.loading
      && r.session.error == (if o.Err? then Some(o.failure.message) else None)
      && (o.Ok? ==> r.session.user == o.value.user && r.storage == Persist(o.value))
      && (o.Ok? ==> LoginPage.Redirect(r.session.isAuthenticated, r.session.user) == Some(LoginPage.NextRouteFor(o.value.user)))
      && (o.Err? ==> CredentialsOf(r.session) == CredentialsOf(w.session) && r.storage == w.storage)
  {
    ResetThenThunk(w, VerifyOtpCall(f.phoneNumber, f.otp), o);
    if o.Ok? {
      LoginPage.RedirectFollowsPolicy(true, o.value.user);
    }
  }

  /** A Google success hands the provider token to the backend; its answer signs in like any
      other login, and a rejection only shows the message. */
  lemma GoogleSubmit(w: AuthState, providerToken: string, o: Outcome<AuthPayload>)
    ensures var ds := LoginPage.OnGoogleSuccess(providerToken);
      var r := Run(w, Expand(ds, o));
      && ds[1].Async? && RequestOf(ds[1].call).url == Http.GoogleUrl
      && Http.Lookup(RequestOf(ds[1].call).body, Http.Token) == Some(Http.Str(providerToken))
      && !r.session.loading
      && r.session.error == (if o.Err? then Some(o.failure.message) else None)
      && (o.Ok? ==> r.session.isAuthenticated && r.session.user == o.value.user && r.storage == Persist(o.value))
      && (o.Err? ==> CredentialsOf(r.session) == CredentialsOf(w.session) && r.storage == w.storage)
  {
    ResetThenThunk(w, GoogleCall(providerToken), o);
  }

  /** The organiser form: the entered email and password are posted; success signs in and
      the page then decides by role, failure shows the message. */
  lemma AdminLoginSubmit(w: AuthState, email: string, password: string, o: Outcome<AuthPayload>)
    ensures var ds := AdminLoginPage.OnAdminLogin(email, password);
      var r := Run(w, Expand(ds, o));
      && ds[1].Async? && RequestOf(ds[1].call).url == Http.LoginUrl
      && Http.Names(RequestOf(ds[1].call).body) == [Http.Email, Http.Password]
      && Http.Lookup(RequestOf(ds[1].call).body, Http.Email) == Some(Http.Str(email))
      && Http.Lookup(RequestOf(ds[1].call).body, Http.Password) == Some(Http.Str(password))
      && !r.session.loading
      && r.session.error == (if o.Err? then Some(o.failure.message) else None)
      && (o.Ok? ==> r.session.isAuthenticated && r.session.user == o.value.user && r.storage == Persist(o.value))
      && (o.Err? ==> CredentialsOf(r.session) == CredentialsOf(w.session) && r.storage == w.storage)
  {
    ResetThenThunk(w, LoginAdminCall(email, password), o);
  }

  /** The organiser's login button is disabled while its request is in flight and enabled
      again once it settles, whatever the answer. */
  lemma AdminButtonTracksRequest(w: AuthState, email: string, password: string, o: Outcome<AuthPayload>)
    ensures AdminLoginPage.ButtonDisabled(Step(Step(w, ResetError), Pending(LoginAdmin)).session)
    ensures !AdminLoginPage.ButtonDisabled(Run(w, Expand(AdminLoginPage.OnAdminLogin(email, password), o)).session)
  {
    ResetThenThunk(w, LoginAdminCall(email, password), o);
  }

  /** Send OTP, type the code, verify. `ks0` is typed while the code is being sent, `ks`
      on the OTP form. The OTP form appears with no error, the code is checked against the
      number the phone input held when the form switched, and a good answer signs the user
      in, persists a usable token and redirects by the routing policy. */
  lemma {:induction false} OtpSignIn(w: AuthState, f: LoginPage.LoginForm, ks0: seq<LoginPage.Keystroke>,
                                     ks: seq<LoginPage.Keystroke>, sendReply: AuthPayload, p: AuthPayload)
    requires ValidLogin(p)
    ensures var sending := Step(Step(w, ResetError), Pending(SendOtp));
      var f0 := LoginPage.TypeAll(f, sending.session.otpSent, ks0);
      var w1 := Step(sending, Fulfilled(SendOtp, sendReply));
      var f1 := LoginPage.TypeAll(f0, true, ks);
      var w2 := Run(w1, Expand(LoginPage.OnVerifyOtp(f1), Ok(p)));
      && w1 == Run(w, Expand(LoginPage.OnSendOtp(f), Ok(sendReply)))
      && w2 == Run(w, Expand(LoginPage.OnSendOtp(f), Ok(sendReply)) + Expand(LoginPage.OnVerifyOtp(f1), Ok(p)))
      && w1.session.otpSent && !w1.session.loading && w1.session.error.None? && w1.storage == w.storage
      && LoginPage.ViewOf(w1.session).form == LoginPage.OtpForm
      && LoginPage.OnVerifyOtp(f1)[1].call == VerifyOtpCall(f0.phoneNumber, f1.otp)
      && w2.session.isAuthenticated && w2.session.user == p.user
      && Present(w2.storage.accessToken) && Synced(w2)
      && LoginPage.Redirect(w2.session.isAuthenticated, w2.session.user) == Some(LoginPage.NextRouteFor(p.user))
  {
    RunResetThen(w, SendOtpCall(f.phoneNumber), Ok(sendReply));
    var sending := Step(Step(w, ResetError), Pending(SendOtp));
    var f0 := LoginPage.TypeAll(f, sending.session.otpSent, ks0);
    var w1 := Step(sending, Fulfilled(SendOtp, sendReply));
    var f1 := LoginPage.TypeAll(f0, true, ks);
    RunResetThen(w1, VerifyOtpCall(f1.phoneNumber, f1.otp), Ok(p));
    RunAppend(w, Expand(LoginPage.OnSendOtp(f), Ok(sendReply)), Expand(LoginPage.OnVerifyOtp(f1), Ok(p)));
    LoginPage.RedirectFollowsPolicy(true, p.user);
  }

  /** While the code is being sent the phone form stays on screen with only its button
      disabled, so the number can still be edited. The OTP form that follows then verifies
      the edited number, not the one the code went to. The phone form is the one that was
      submitted, so the OTP form was not showing. */
  lemma EditWhileSending(w: AuthState, f: LoginPage.LoginForm, t: string, sendReply: AuthPayload, ks: seq<LoginPage.Keystroke>)
    requires !w.session.otpSent
    ensures var sending := Step(Step(w, ResetError), Pending(SendOtp));
      var f0 := LoginPage.TypeAll(f, sending.session.otpSent, [LoginPage.EditPhone(t)]);
      var w1 := Step(sending, Fulfilled(SendOtp, sendReply));
      var verified := LoginPage.OnVerifyOtp(LoginPage.TypeAll(f0, true, ks))[1].call.phoneNumber;
      && LoginPage.ViewOf(sending.session).form == LoginPage.PhoneForm
      && LoginPage.ViewOf(sending.session).submitDisabled
      && LoginPage.ViewOf(w1.session).form == LoginPage.OtpForm
      && verified == t
      && (t != f.phoneNumber ==> verified != LoginPage.OnSendOtp(f)[1].call.phoneNumber)
  {
    LoginPage.EditBeforeSwitchIsVerified(f, t, ks);
  }

  /** 'Change Phone Number' reloads the page: the store boots from storage, so the phone
      form is back (a reload never keeps `otpSent`), storage is untouched, and the page
      starts from blank inputs, where the code stays empty until an OTP form shows again. */
  lemma ChangePhoneNumber(w: AuthState, ks: seq<LoginPage.Keystroke>)
    ensures var r := Boot(w.storage);
      && LoginPage.ViewOf(r.session).form == LoginPage.PhoneForm
      && r.storage == w.storage
      && LoginPage.TypeAll(LoginPage.BlankForm, r.session.otpSent, ks).otp == ""
  {
  }

  /** A wrong code: the error is shown, the user stays signed out (or as before), the OTP
      form stays, and nothing is persisted. */
  lemma WrongOtp(w: AuthState, f: LoginPage.LoginForm, failure: Failure)
    requires w.session.otpSent
    ensures var r := Run(w, Expand(LoginPage.OnVerifyOtp(f), Err(failure)));
      && r.session.error == Some(failure.message)
      && CredentialsOf(r.session) == CredentialsOf(w.session)
      && r.session.otpSent && !r.session.loading
      && r.storage == w.storage
      && LoginPage.ViewOf(r.session).form == LoginPage.OtpForm
  {
    RunResetThen(w, VerifyOtpCall(f.phoneNumber, f.otp), Err(failure));
  }

  /** The three sign-in paths end in the same state for the same server answer. */
  lemma SignInPathsAgree(w: AuthState, f: LoginPage.LoginForm, email: string, password: string, providerToken: string, p: AuthPayload)
    ensures var viaOtp := Run(w, Expand(LoginPage.OnVerifyOtp(f), Ok(p)));
      && viaOtp == Run(w, Expand(AdminLoginPage.OnAdminLogin(email, password), Ok(p)))
      && viaOtp == Run(w, Expand(LoginPage.OnGoogleSuccess(providerToken), Ok(p)))
  {
    RunResetThen(w, VerifyOtpCall(f.phoneNumber, f.otp), Ok(p));
    RunResetThen(w, LoginAdminCall(email, password), Ok(p));
    RunResetThen(w, GoogleCall(providerToken), Ok(p));
  }

  /** An admin signing in on the organiser page is sent to the dashboard, which shows the
      admin panel without a Switch Role link; the request carried what was entered. */
  lemma AdminSignIn(w: AuthState, email: string, password: string, p: AuthPayload)
    requires ValidLogin(p) && HasRole(p.user, ADMIN)
    ensures var r := Run(w, Expand(AdminLoginPage.OnAdminLogin(email, password), Ok(p)));
      && r.session.isAuthenticated && Synced(r)
      && AdminLoginPage.EffectOf(r.session.isAuthenticated, r.session.user) == AdminLoginPage.Go(DashboardRoute)
      && DashboardPage.PanelFor(r.session.user) == DashboardPage.AdminPanel
      && !DashboardPage.SwitchRoleShown(r.session.user)
      && RequestOf(LoginAdminCall(email, password)).body == [Http.Field(Http.Email, Http.Str(email)), Http.Field(Http.Password, Http.Str(password))]
  {
    RunResetThen(w, LoginAdminCall(email, password), Ok(p));
  }

  /** A non-admin who signs in on the organiser page gets the alert and stays signed in:
      there is neither navigation nor logout. */
  lemma NonAdminDenied(w: AuthState, email: string, password: string, p: AuthPayload)
    requires !HasRole(p.user, ADMIN)
    ensures var r := Run(w, Expand(AdminLoginPage.OnAdminLogin(email, password), Ok(p)));
      && AdminLoginPage.EffectOf(r.session.isAuthenticated, r.session.user) == AdminLoginPage.Deny(AdminLoginPage.AccessDenied)
      && r.session.isAuthenticated && r.storage == Persist(p)
  {
    RunResetThen(w, LoginAdminCall(email, password), Ok(p));
  }

  /** Choosing a role and reloading: the new user reaches the session only through the page
      load, which keeps the tokens; the dashboard then shows the granted role's panel. */
  lemma RoleSwitchRoundTrip(w: AuthState, card: RoleSelectionPage.RoleCard, u: User)
    requires Synced(w)
    ensures var sel := RoleSelectionPage.OnRoleSelect(w, RoleSelectionPage.RoleOfCard(card), Ok(Some(u)));
      var reloaded := Boot(sel.state.storage);
      && sel.state.session == w.session
      && reloaded.session.user == Some(u)
      && reloaded.session.token == w.session.token
      && reloaded.session.isAuthenticated == w.session.isAuthenticated
      && (u.role == Some(RoleSelectionPage.RoleOfCard(card)) ==>
            DashboardPage.PanelFor(reloaded.session.user) == (if card == RoleSelectionPage.VisitorCard then DashboardPage.VisitorPanel else DashboardPage.ExhibitorPanel))
  {
  }

  /** A failed role change leaves storage and session alone and does not leave the page. */
  lemma RoleSwitchFailure(w: AuthState, role: string, failure: Failure)
    ensures var sel := RoleSelectionPage.OnRoleSelect(w, role, Err(failure));
      sel.state == w && forall i | 0 <= i < |sel.effects| :: !sel.effects[i].Relocate? && !sel.effects[i].Navigate?
  {
  }

  /** Logout (the dashboard's button and the role page's Sign Out dispatch the same action),
      from any state: the store takes exactly the logout step, which signs out in memory and
      in storage, so no page would redirect. */
  lemma LogoutAnywhere(w: AuthState, o: Outcome<AuthPayload>)
    ensures var r := Run(w, Expand(DashboardPage.OnLogoutClick(), o));
      && r == Step(w, Logout)
      && CredentialsOf(r.session) == Anonymous && r.storage == Cleared && Synced(r)
      && DashboardPage.PanelFor(r.session.user) == DashboardPage.UnknownRole
      && LoginPage.Redirect(r.session.isAuthenticated, r.session.user).None?
      && AdminLoginPage.EffectOf(r.session.isAuthenticated, r.session.user) == AdminLoginPage.Stay
  {
  }
}

=== FILE: http.dfy ===
/** The requests the front-end sends to the backend. Paths are kept structured: each
    constructor of `Endpoint` names one URL template of the REST API. */
module Http {
  import opened Common

  datatype Method = Get | Post | Delete

  /** The two application decisions; `approve` and `reject` are path segments. */
  datatype Decision = Approve | Reject

  datatype Endpoint =
    | SendOtpUrl                                        // auth/send-otp/
    | VerifyOtpUrl                                      // auth/verify-otp/
    | LoginUrl                                          // auth/login/
    | GoogleUrl                                         // auth/google/
    | UpdateRoleUrl                                     // auth/update-role/
    | EventsUrl                                         // events/
    | EventUrl(eventId: nat)                            // events/{id}/
    | ApplicationsUrl                                   // exhibitor/applications/
    | ApplicationsOfEventUrl(exhibition: Option<nat>)   // exhibitor/applications/?exhibition={id}
    | DecisionUrl(appId: nat, decision: Decision)       // exhibitor/applications/{id}/{approve|reject}/
    | PropertiesUrl                                     // exhibitor/properties/
    | PropertiesOfUrl(application: Option<nat>)         // exhibitor/properties/?exhibitor_application={id}
    | PropertyUrl(propertyId: nat)                      // exhibitor/properties/{id}/
    | VerifyQrUrl                                       // visitor/registrations/verify-qr/

  /** A field value in a request body; `Null` is JSON `null` (or the text "null" in a form). */
  datatype Value = Str(s: string) | Num(n: int) | Null | Upload(fileName: string)

  /** The body field names the front-end uses; `Wire` gives each one's name on the wire. */
  datatype Key =
    | PhoneNumber | Otp | Email | Password | Token | Role | QrToken | BoothNumber
    | Name | Description | VenueName | Address | City | State | Country
    | StartDate | EndDate | BoothCapacity
    | CompanyName | CouncilArea | BusinessType | ContactDetails | ExhibitionId | PaymentScreenshot
    | Title | Location | PriceMin | PriceMax | ExhibitorApplication

  function Wire(k: Key): string
  {
    match k
    case PhoneNumber => "phone_number"
    case Otp => "otp"
    case Email => "email"
    case Password => "password"
    case Token => "token"
    case Role => "role"
    case QrToken => "qr_token"
    case BoothNumber => "booth_number"
    case Name => "name"
    case Description => "description"
    case VenueName => "venue_name"
    case Address => "address"
    case City => "city"
    case State => "state"
    case Country => "country"
    case StartDate => "start_date"
    case EndDate => "end_date"
    case BoothCapacity => "booth_capacity"
    case CompanyName => "company_name"
    case CouncilArea => "council_area"
    case BusinessType => "business_type"
    case ContactDetails => "contact_details"
    case ExhibitionId => "exhibition"
    case PaymentScreenshot => "payment_screenshot"
    case Title => "title"
    case Location => "location"
    case PriceMin => "price_min"
    case PriceMax => "price_max"
    case ExhibitorApplication => "exhibitor_application"
  }

  datatype Field = Field(name: Key, value: Value)

  /** JSON bodies and multipart form data (used when a file is attached). */
  datatype Encoding = Json | Multipart

  datatype Request = Request(verb: Method, url: Endpoint, body: seq<Field>, encoding: Encoding)

  /** A request without a body. */
  function Fetch(url: Endpoint): Request
  {
    Request(Get, url, [], Json)
  }

  /** The field names of a body, in order. */
  function Names(body: seq<Field>): (names: seq<Key>)
    ensures |names| == |body|
    ensures forall i | 0 <= i < |body| :: names[i] == body[i].name
  {
    if |body| == 0 then [] else [body[0].name] + Names(body[1..])
  }

  /** The value of the first field called `name`, as a form or JSON reader sees it. */
  function Lookup(body: seq<Field>, name: Key): Option<Value>
  {
    if |body| == 0 then None
    else if body[0].name == name then Some(body[0].value)
    else Lookup(body[1..], name)
  }

  /** The body that sends `values` under the names `keys`, in that order. */
  function Zip(keys: seq<Key>, values: seq<Value>): (body: seq<Field>)
    requires |keys| == |values|
    ensures |body| == |keys|
    ensures forall i | 0 <= i < |body| :: body[i] == Field(keys[i], values[i])
  {
    if |keys| == 0 then [] else [Field(keys[0], values[0])] + Zip(keys[1..], values[1..])
  }

  /** No name occurs twice. */
  predicate Distinct(keys: seq<Key>)
  {
    forall i, j | 0 <= i < j < |keys| :: keys[i] != keys[j]
  }

  lemma NamesZip(keys: seq<Key>, values: seq<Value>)
    requires |keys| == |values|
    ensures Names(Zip(keys, values)) == keys
  {
  }

  /** With distinct names, a reader finds under each name the value sent with it. */
  lemma LookupZip(keys: seq<Key>, values: seq<Value>, i: nat)
    requires |keys| == |values| && Distinct(keys) && i < |keys|
    ensures Lookup(Zip(keys, values), keys[i]) == Some(values[i])
  {
    LookupAt(Zip(keys, values), i);
  }

  /** A field whose name no earlier field has is what a reader finds under that name. */
  lemma {:induction false} LookupAt(body: seq<Field>, i: nat)
    requires i < |body|
    requires forall j | 0 <= j < i :: body[j].name != body[i].name
    ensures Lookup(body, body[i].name) == Some(body[i].value)
    decreases i
  {
    if i > 0 {
      assert body[1..][i - 1] == body[i];
      LookupAt(body[1..], i - 1);
    }
  }
}

=== FILE: login.dfy ===
/** The public sign-in page: the post-login redirect, the phone/OTP form switch and the
    dispatches of its three submit paths (send OTP, verify OTP, Google). */
module LoginPage {
  import opened Common
  import opened Ui
  import opened Auth

  /** The one routing policy after a sign-in: a visitor chooses a role first, everyone
      else (including a user without a role) lands on the dashboard. */
  function NextRouteFor(user: Option<User>): (r: Route)
    ensures r == SelectRoleRoute <==> HasRole(user, VISITOR)
  {
    if HasRole(user, VISITOR) then SelectRoleRoute else DashboardRoute
  }

  /** The redirect effect, as the page writes it: admins first, then visitors, then the
      rest. `None` is "no navigation". */
  function Redirect(isAuthenticated: bool, user: Option<User>): (r: Option<Route>)
    ensures !isAuthenticated ==> r.None?
    ensures isAuthenticated && HasRole(user, ADMIN) ==> r == Some(DashboardRoute)
    ensures isAuthenticated && HasRole(user, VISITOR) ==> r == Some(SelectRoleRoute)
    ensures isAuthenticated && !HasRole(user, VISITOR) ==> r == Some(DashboardRoute)
  {
    if isAuthenticated then
      if RoleOf(user) == Some(ADMIN) then Some(DashboardRoute)
      else if RoleOf(user) == Some(VISITOR) then Some(SelectRoleRoute)
      else Some(DashboardRoute)
    else None
  }

  /** The nested branches of the page agree with the single policy. */
  lemma RedirectFollowsPolicy(isAuthenticated: bool, user: Option<User>)
    ensures Redirect(isAuthenticated, user) == (if isAuthenticated then Some(NextRouteFor(user)) else None)
  {
  }

  /** The page's local form state. */
  datatype LoginForm = LoginForm(phoneNumber: string, otp: string)

  const BlankForm: LoginForm := LoginForm("", "")

  datatype FormKind = PhoneForm | OtpForm

  datatype LoginView = LoginView(title: string, form: FormKind, submitDisabled: bool, errorBanner: Option<string>)

  /** What the page renders for a session. */
  function ViewOf(s: Session): (v: LoginView)
    ensures v.form == OtpForm <==> s.otpSent
    ensures v.title == "Verify OTP" <==> s.otpSent
    ensures !s.otpSent ==> v.title == "Sign In"
    ensures v.submitDisabled <==> s.loading
    ensures v.errorBanner.Some? <==> Present(s.error)
    ensures v.errorBanner.Some? ==> v.errorBanner == s.error
  {
    LoginView(
      title := if s.otpSent then "Verify OTP" else "Sign In",
      form := if s.otpSent then OtpForm else PhoneForm,
      submitDisabled := s.loading,
      errorBanner := if Present(s.error) then s.error else None)
  }

  /** Submitting the phone form. */
  function OnSendOtp(f: LoginForm): (ds: seq<Dispatch>)
    ensures |ds| == 2 && ds[0] == Plain(ResetError)
    ensures ds[1] == Async(SendOtpCall(f.phoneNumber))
  {
    [Plain(ResetError), Async(SendOtpCall(f.phoneNumber))]
  }

  /** Submitting the OTP form. */
  function OnVerifyOtp(f: LoginForm): (ds: seq<Dispatch>)
    ensures |ds| == 2 && ds[0] == Plain(ResetError)
    ensures ds[1] == Async(VerifyOtpCall(f.phoneNumber, f.otp))
  {
    [Plain(ResetError), Async(VerifyOtpCall(f.phoneNumber, f.otp))]
  }

  /** The Google provider reported success with its access token. */
  function OnGoogleSuccess(providerToken: string): (ds: seq<Dispatch>)
    ensures |ds| == 2 && ds[0] == Plain(ResetError)
    ensures ds[1] == Async(GoogleCall(providerToken))
  {
    [Plain(ResetError), Async(GoogleCall(providerToken))]
  }

  /** Typing into the page's inputs. */
  datatype Keystroke = EditPhone(text: string) | EditOtp(text: string)

  /** Only the rendered form's input can be edited. */
  function Type(f: LoginForm, otpSent: bool, k: Keystroke): (r: LoginForm)
    ensures otpSent ==> r.phoneNumber == f.phoneNumber
    ensures !otpSent ==> r.otp == f.otp
  {
    match k
    case EditPhone(t) => if otpSent then f else f.(phoneNumber := t)
    case EditOtp(t) => if otpSent then f.(otp := t) else f
  }

  function TypeAll(f: LoginForm, otpSent: bool, ks: seq<Keystroke>): (r: LoginForm)
    ensures otpSent ==> r.phoneNumber == f.phoneNumber
    ensures !otpSent ==> r.otp == f.otp
    decreases |ks|
  {
    if |ks| == 0 then f else TypeAll(Type(f, otpSent, ks[0]), otpSent, ks[1..])
  }

  /** The OTP form verifies the number that was in the phone input when the form
      switched: keystrokes on the OTP form cannot change it. Edits made before the switch,
      including those made while the code was still being sent, can. */
  lemma VerifyUsesPhoneAtSwitch(f: LoginForm, ks0: seq<Keystroke>, ks: seq<Keystroke>)
    ensures var atSwitch := TypeAll(f, false, ks0);
      var typed := TypeAll(atSwitch, true, ks);
      OnVerifyOtp(typed)[1].call == VerifyOtpCall(atSwitch.phoneNumber, typed.otp)
  {
  }

  /** One edit of the phone input before the switch is the number verified, whatever the
      code was sent to. */
  lemma EditBeforeSwitchIsVerified(f: LoginForm, t: string, ks: seq<Keystroke>)
    ensures var atSwitch := TypeAll(f, false, [EditPhone(t)]);
      var verified := OnVerifyOtp(TypeAll(atSwitch, true, ks))[1].call.phoneNumber;
      && verified == t
      && (t != f.phoneNumber ==> verified != OnSendOtp(f)[1].call.phoneNumber)
  {
    assert [EditPhone(t)][1..] == [];
  }
}

=== FILE: records.dfy ===
/** The backend's domain records, reduced to the fields the panels read. */
module Records {

  const APPROVED: string := "APPROVED"
  const REJECTED: string := "REJECTED"
  const PENDING: string := "PENDING"

  datatype Exhibition = Exhibition(id: nat, name: string)

  /** An exhibitor's booth application for the exhibition with id `exhibition`. */
  datatype Application = Application(id: nat, exhibition: nat, status: string, companyName: string)

  /** A property listed under an approved application. */
  datatype Property = Property(id: nat, title: string)
}

=== FILE: role_selection.dfy ===
/** The role-selection page: a visitor picks Visitor or Exhibitor; the server's answer is
    written to storage and the page reloads so the store is re-seeded from it. */
module RoleSelectionPage {
  import opened Common
  import opened Http
  import opened Ui
  import opened Auth

  /** The two cards on the page. */
  datatype RoleCard = VisitorCard | ExhibitorCard

  function RoleOfCard(c: RoleCard): (role: string)
    ensures role != ADMIN
    ensures role == VISITOR || role == EXHIBITOR
  {
    match c
    case VisitorCard => VISITOR
    case ExhibitorCard => EXHIBITOR
  }

  /** The roles the page can request, in card order. */
  const OfferedRoles: seq<string> := [RoleOfCard(VisitorCard), RoleOfCard(ExhibitorCard)]

  lemma AdminNeverRequested()
    ensures ADMIN !in OfferedRoles
    ensures forall c: RoleCard :: RoleOfCard(c) in OfferedRoles
  {
  }

  const RoleFailed: string := "Failed to set role. Please try again."

  datatype Selection = Selection(state: AuthState, effects: seq<Effect>)

  /** Choosing a role; `o` is the server's answer, whose `user` replaces the stored one.
      The in-memory session is not touched: only a page load picks the new user up. */
  function OnRoleSelect(w: AuthState, role: string, o: Outcome<Option<User>>): (r: Selection)
    ensures r.state.session == w.session
    ensures |r.effects| == 2 && r.effects[0] == Send(Request(Post, UpdateRoleUrl, [Field(Role, Str(role))], Json))
    ensures o.Ok? ==> r.state.storage == w.storage.(user := Some(o.value))
    ensures o.Ok? ==> r.effects[1] == Relocate(DashboardRoute)
    ensures o.Err? ==> r.state == w && r.effects[1] == Alert(RoleFailed)
  {
    var request := Send(Request(Post, UpdateRoleUrl, [Field(Role, Str(role))], Json));
    match o
    case Ok(u) => Selection(AuthState(w.session, w.storage.(user := Some(u))), [request, Relocate(DashboardRoute)])
    case Err(_) => Selection(w, [request, Alert(RoleFailed)])
  }

  /** Selecting a role keeps the tokens: the access and refresh keys are never written. */
  lemma RoleSelectKeepsTokens(w: AuthState, role: string, o: Outcome<Option<User>>)
    ensures var st := OnRoleSelect(w, role, o).state.storage;
      st.accessToken == w.storage.accessToken && st.refreshToken == w.storage.refreshToken
  {
  }
}

=== FILE: ui.dfy ===
/** What a page can do besides changing its own state: send a request, raise a blocking
    alert, or move to another client route. */
module Ui {
  import opened Http

  /** Client routes: `/dashboard` and `/select-role`. */
  datatype Route = DashboardRoute | SelectRoleRoute

  datatype Effect =
    | Send(request: Request)
    | Alert(text: string)
    | Navigate(route: Route)   // in-app navigation; the store survives
    | Relocate(route: Route)   // assignment to window.location: a full page load
}
